=== FILE: README.md ===
# Hospital appointment scheduling, modelled in Dafny

This project models the appointment-scheduling core of a Flask hospital
management system: its weekly doctor availability, the appointment life cycle
(BOOKED, COMPLETED, CANCELLED) as the patient, doctor and admin pages drive
it, and the small helpers those pages rely on (slot parsing, ages, counters,
dashboard orderings, registration and login decisions, form constraints).

The database is an immutable `Store` of tables (`seq`s of records in
insertion order). Each request is a pure function from a store to a
`Step(store, outcome)`. An outcome other than `Saved` (a refusal, a 404, a
403, a form shown again, a rollback, an escaped exception) leaves the store
exactly as it was. Read-only pages return `Shown(value)` or `Refused(outcome)`.

Inputs that the program takes from its environment are parameters:

- the signed-in account (`me`);
- today's date (`today`);
- the weekday of a date (`weekday: Date -> Day`);
- the member names of the `DayOfWeek` enum (`DayTable`), because the enum is not defined in the code;
- whether WTForms' `validate_on_submit()` passes (`validated`), conjoined with the field checks the model does state;
- whether an address passes the `Email()` validator;
- the password hash functions.

Modules, one per file:

- `Optional`, `Text`, `Clock`, `Seqs`: general helpers.
  - `Text` covers Python's `strip`, `split`, `join` and `upper`.
  - `Clock` covers times of day as minutes, `strftime('%H:%M')`, `strptime` for `%H:%M` and `%Y-%m-%d`, dates and ages.
  - `Seqs` covers filtering, sorting and sorted sets.
- `Models`: the records of `models.py` and `Doctor.get_slots`.
- `Database`: the store, the outcomes and the `get_or_404`-style lookups.
- `Forms`: the form constraints of `forms.py`.
- `Schedule`: the weekly availability store.
  - The admin's replace of a doctor's rows by the product of days × start times.
  - The slot lookup for a date.
- `Listings`: the `(date, time)` orderings and Python's `max`.
- `PatientRoutes`, `DoctorRoutes`, `AdminRoutes`, `Auth`: the handlers of `routes/patients.py`, `routes/doctor.py`, `routes/admin.py` and `run.py`.
- `Lifecycle`: lemmas about sequences of requests, showing the guards the handlers lack.
  - No double-booking check.
  - No status check before a treatment.
  - Unrestricted status updates.

Facts about the code that the model keeps:

- Availability is set per weekday only; no date has its own override.
- Booking checks neither for a past date nor for an appointment already holding the slot.
- A treatment can be recorded for an appointment in any status.
- A status update may move between any two statuses.
- A Doctor with a profile is sent to the admin dashboard at login.
- Deleting an appointment that has a treatment fails at the commit, for the patient and for an admin.
- Deleting a patient whose account also holds a doctor profile fails at the commit.
- Deleting a patient removes only the first treatment of each appointment, because the relationship is one-to-one.
  - An appointment with two treatments keeps one (`AdminRoutes.DeletePatientLeavesSecondTreatment`).
  - So "no treatment of the patient remains" holds only for appointments with at most one treatment.

## Model

| member | source | states |
|---|---|---|
| Models.GetSlots | models.py:21-24 | no slots for a missing or empty field; otherwise slot i is the i-th comma-separated field with its surrounding whitespace removed, one slot per field (commas + 1), none holding a comma |
| Models.GetSlotsOfJoin | models.py:21-24 | round trip: for trimmed, comma-free fields whose join is not empty, splitting the comma-join gives back exactly those fields |
| Models.GetSlotsKeepsEmptyFields | models.py:23 | an empty field is kept, not dropped: "a,,b" reads as ["a", "", "b"] |
| Models.GetSlotsLosesLoneEmptyField | models.py:22 | the one-field list [""] joins to "", which reads back as no slots: the only list the round trip loses |
| Models.StatusNamed | routes/doctor.py:98-99 | a status name is accepted exactly when it is BOOKED, COMPLETED or CANCELLED, and names a status that prints back as that name |
| Models.StatusNameRoundTrip | routes/doctor.py:98-99 | every status is found again under its own name |
| Text.Split | models.py:23 | str.split on one character: one field more than there are separators, no field holds the separator, and joining the fields restores the string |
| Text.Strip | models.py:23 | str.strip gives the slice of the text left after removing its leading and trailing runs of whitespace: no surrounding whitespace, everything cut off is whitespace, and an already stripped text is kept |
| Seqs.SortedSet | routes/patients.py:206-207 | sorted(list(set(xs))) is strictly ascending and holds exactly the values of xs |
| Text.SplitJoin | run.py:80-84 | splitting the join of separator-free fields gives the fields back |
| Clock.Label | routes/admin.py:92 | strftime('%H:%M') is five characters with the colon in the middle |
| Clock.ParseLabel | routes/admin.py:106 | strptime('%H:%M') of a printed time gives back that time |
| Clock.ParsedLabelIsCanonical | routes/patients.py:178 | a five-character text that parses is the printed form of the time it parses to |
| Clock.ShortFieldsParse | routes/patients.py:178 | strptime accepts one-digit fields: "9:5" is 09:05 |
| Clock.SingleCharacterIsNotTime | routes/admin.py:219 | no one-character text parses as a time |
| Clock.LabelOrder | routes/admin.py:100 | sorting the HH:MM labels as strings orders them by time, in both directions |
| Clock.SlotEndWraps | routes/admin.py:220-221 | a slot's end is start + 30 minutes, wrapping past midnight |
| Clock.ParseDate | routes/patients.py:216 | a date that strptime('%Y-%m-%d') accepts is a real calendar date |
| Clock.ParseIsoFormat | routes/patients.py:216 | every real date parses back from its YYYY-MM-DD form |
| Clock.Age | routes/admin.py:278 | the age is the number of birthdays passed: its anniversary is on or before today and the next one after today |
| Clock.AgeUnique | routes/patients.py:20 | only one count of years has that property, so the age is determined by it |
| Clock.AgeNonNegative | routes/admin.py:278 | an age is never negative for a birth date on or before today |
| Forms.DayChoicesAreTheWeek | forms.py:21-26 | the day choices are the seven days, each offered once under its three-letter code and English name |
| Forms.DayChoiceNamesADay | forms.py:21-26 | every day value the form submits names a day |
| Forms.DayCodeIsClean | forms.py:24-25 | a day code is three characters, with no comma and no surrounding space |
| Forms.RegisterValidRole | forms.py:15-16 | a registration that validates chose Patient or Doctor (never Admin) and confirmed its password |
| Forms.TimeChoices | forms.py:40-45 | a value is among the choices exactly when slots were given and it is one of them; each choice's value is its label; one choice per slot |
| Forms.TimeChoicesOffersTheSlots | forms.py:40-45 | a time is selectable exactly when it is one of the slots |
| Forms.NoSlotsNoValidTime | forms.py:44-45 | a form built without slots accepts no time at all |
| Database.DoctorChoiceIds | routes/patients.py:174-175 | the doctor choices are exactly the doctors whose account exists |
| Database.NextId | routes/patients.py:189-190 | a new row's id is not used by any existing row |
| Database.FindAppointmentAfterUpdate | routes/doctor.py:78-79 | rewriting an appointment without changing its id leaves every lookup by id unchanged |
| Schedule.LookupDay | routes/admin.py:217 | DayOfWeek[key] succeeds exactly for a member name and gives that member |
| Schedule.KeyConventionsDiffer | routes/admin.py:87 | the lookup key of a weekday ("MONDAY") is never the writer's key for it ("MON") |
| Schedule.CodeOnlyTableFindsNoDate | routes/patients.py:217-222 | if the enum answers only to the form codes, no date finds a day |
| Schedule.NameOnlyTableRejectsFormCodes | routes/admin.py:216-217 | if the enum answers only to weekday names, any edit choosing a form day code raises |
| Schedule.RowsOn | routes/patients.py:219-222 | the doctor's rows on a day are exactly the stored rows with that doctor and day |
| Schedule.ByStart | routes/admin.py:88-91 | ordering by start time is a permutation with nondecreasing starts |
| Schedule.StartLabelsMembership | routes/patients.py:207 | a label is among the start labels exactly when some row starts at that time |
| Schedule.ResolveDays | routes/admin.py:216-217 | every day code resolves (else KeyError), giving each code's member in order |
| Schedule.ParseTimes | routes/admin.py:218-219 | every slot text parses (else ValueError), giving each text's time in order |
| Schedule.Product | routes/admin.py:216-229 | the nested loops add |days| × |starts| rows, and a row is added exactly when it has a chosen day, a chosen start and end = start + 30 minutes |
| Schedule.ReplaceSchedule | routes/admin.py:212-230 | the replace fails exactly when a loop raises; otherwise other doctors' rows are unchanged, and this doctor's rows are exactly the requested day × time product, with no earlier row surviving |
| Schedule.RequestedIsProduct | routes/admin.py:216-229 | a requested row is exactly a row of the product of the resolved days and parsed times |
| Schedule.FrameOfReplace | routes/admin.py:212 | deleting the doctor's rows and appending the doctor's product keeps every other doctor's rows in order |
| Schedule.SlotLabelsOn | routes/patients.py:216-224 | fails exactly when the weekday name is not an enum member; otherwise a time is listed exactly when one of the doctor's rows on that weekday starts at it |
| Schedule.LabelInjective | routes/patients.py:224 | distinct times have distinct labels |
| Schedule.LabelMonotone | routes/admin.py:88-92 | an earlier start has a label that is no greater as a string |
| Schedule.LabelIsClean | run.py:78-79 | a label has no comma and no surrounding space, so it survives a comma-join and get_slots |
| Schedule.SlotsOfTimeLabels | models.py:21-24 | the comma-join of a non-empty list of time labels reads back from get_slots as those labels |
| Listings.ChronologicalIsTotalPreorder | routes/patients.py:25 | (date, time) order, ascending and descending, is a total preorder |
| Listings.Ascending | routes/patients.py:25 | ORDER BY date, time is a permutation sorted earliest first |
| Listings.Descending | routes/patients.py:30 | ORDER BY date DESC, time DESC is a permutation sorted latest first |
| Listings.Latest | routes/admin.py:280-282 | max by (date, time): none for no appointments; otherwise an appointment no other is later than, the first such |
| Listings.LatestUnique | routes/admin.py:282 | only one position has both properties, so max's pick is determined by them |
| PatientRoutes.LookupOwned | routes/patients.py:69-72 | 404 when the id is unknown, a server error when the account has no patient profile, 403 unless the appointment is the patient's |
| PatientRoutes.Dashboard | routes/patients.py:10-35 | non-patients are turned away; the upcoming list holds exactly the patient's appointments from today on, sorted ascending, and the past list exactly the earlier ones, sorted descending; together they are the patient's appointments, each once |
| PatientRoutes.EditAppointment | routes/patients.py:66-95 | saves exactly for the owner's BOOKED, not-past appointment with a valid form; then only doctor, date, time and problem change; past dates and other statuses are refused unchanged |
| PatientRoutes.EditAppointmentAsWritten | routes/patients.py:82-87 | as written, the form has no time choices, so an edit never saves and never changes the store |
| PatientRoutes.EditAppointmentFromSlots | routes/patients.py:82-93 | with the doctor's slots offered, a saved edit puts the appointment at the start of one of the doctor's weekly slots |
| PatientRoutes.DeleteAppointment | routes/patients.py:105-116 | the owner's appointment is removed, whatever its date or status, exactly when it has no treatment, and nothing else changes; with a treatment the commit fails on the NOT NULL Treatment.appointment_id (models.py:43, 47) and nothing changes |
| PatientRoutes.Cancel | routes/patients.py:118-137 | saves exactly for the owner's BOOKED, not-past appointment, changing only its status to CANCELLED; COMPLETED and CANCELLED rows are never altered |
| PatientRoutes.Feedback | routes/patients.py:139-165 | saves exactly for the owner's COMPLETED appointment not yet reviewed, with a rating in 1..5, writing only rating and remarks |
| PatientRoutes.FeedbackWithoutRemarksRepeats | routes/patients.py:152 | feedback with empty remarks does not count as given, so the same appointment accepts feedback again |
| PatientRoutes.Book | routes/patients.py:177-190 | a valid form appends exactly one BOOKED appointment for the signed-in patient at the chosen doctor, date, time and problem, with a fresh id; existing rows are untouched |
| PatientRoutes.BookAsWritten | routes/patients.py:172-177 | as written, the form has no time choices, so booking never saves and never changes the store |
| PatientRoutes.BookFromSlots | routes/patients.py:177-190 | with the doctor's slots offered, a saved booking starts at one of the doctor's weekly slots on that weekday |
| PatientRoutes.ChosenTimeIsASlot | routes/patients.py:178 | a time chosen among the offered slots parses, to the start of one of the doctor's rows on that weekday |
| PatientRoutes.SlotsForDate | routes/patients.py:212-228 | an empty list for a malformed date or an unknown weekday key; otherwise every listed label is the start of one of the doctor's rows on that weekday, and every such row's start is listed |
| PatientRoutes.DoctorSummary | routes/patients.py:203-208 | a doctor's days and slots are each strictly ascending (sorted, no duplicates) and hold exactly the day values and start labels of the doctor's rows |
| PatientRoutes.DayValues | routes/patients.py:206 | the day values list holds exactly the rows' day values |
| PatientRoutes.ListDoctors | routes/patients.py:197-210 | an entry for exactly the doctors with an account; each holds exactly that doctor's day values and start labels, each once and ascending |
| DoctorRoutes.Dashboard | routes/doctor.py:8-34 | non-doctors are turned away; upcoming is exactly this doctor's BOOKED appointments from today on, ascending; completed is exactly its COMPLETED ones, descending |
| DoctorRoutes.PatientHistory | routes/doctor.py:36-54 | exactly the appointments between that patient and this doctor, latest first |
| DoctorRoutes.SortedMembership | routes/doctor.py:18-27 | a reordering of the filtered rows holds exactly the rows passing the filter |
| DoctorRoutes.LookupOwned | routes/doctor.py:59-65 | role check, then 404, then a server error without a profile, then 403 unless the appointment is this doctor's |
| DoctorRoutes.Treat | routes/doctor.py:56-84 | saves exactly for the doctor's own appointment with a diagnosis, whatever its status: one new treatment (disease = diagnosis = the submitted diagnosis) and status COMPLETED, nothing else |
| DoctorRoutes.UpdateStatus | routes/doctor.py:86-105 | a valid status name is written whatever the current status, and only the status changes; any other name changes nothing |
| AdminRoutes.TargetOf | routes/admin.py:72-82 | a GET, or a POST whose doctor field is not an integer, keeps the appointment's doctor and date; otherwise the posted doctor (the appointment's when the field is absent) and, if it parses, the posted date |
| AdminRoutes.OrderedSlots | routes/admin.py:85-92 | the doctor's start labels on a weekday, sorted, holding the label of exactly those rows |
| AdminRoutes.SortedStartLabels | routes/admin.py:88-92 | labels of rows ordered by start time are in string order |
| AdminRoutes.TargetSlots | routes/admin.py:84-92 | no lookup for doctor id 0; a KeyError for an unknown weekday name; otherwise exactly the target doctor's start labels on the target weekday, sorted |
| AdminRoutes.AdminTimeChoices | routes/admin.py:84-100 | the time choices are sorted, always contain the appointment's current time, and are exactly the target's slots plus that time |
| AdminRoutes.WithCurrentFacts | routes/admin.py:96-100 | appending the current label and sorting keeps exactly the old labels and the new one |
| AdminRoutes.ChoiceParses | routes/admin.py:106 | a chosen time among the admin's choices always parses, so the try block cannot fail there |
| AdminRoutes.LookupAppointment | routes/admin.py:57-61 | non-admins are turned away before the 404 lookup |
| Forms.DoctorData | forms.py:33 | the doctor field's data is an id exactly when an integer was posted |
| Forms.WithObjectDoctor | routes/admin.py:62 | a form built with obj=appt keeps the appointment's doctor when the field is absent, and reads any posted field as posted |
| AdminRoutes.EditAppointment | routes/admin.py:54-122 | a server error exactly when the weekday name is unknown; a save exactly on a valid POST, the doctor defaulting to the appointment's when the field is absent; then only doctor, date, time and problem change; never a rollback |
| AdminRoutes.DeleteAppointment | routes/admin.py:41-52 | an admin removes exactly that appointment and nothing else when it has no treatment; with a treatment the commit fails on the NOT NULL Treatment.appointment_id (models.py:43, 47) and nothing changes |
| AdminRoutes.EditDoctorWith | routes/admin.py:191-239 | with a valid form, either the specialization and schedule are replaced together (other doctors' rows unchanged, this doctor's rows exactly the requested product) or a raise rolls everything back |
| AdminRoutes.EditDoctor | routes/admin.py:213-219 | as written, the slot text is iterated by character, so a valid edit always rolls back and never saves |
| AdminRoutes.EditDoctorFixed | routes/admin.py:212-230 | with the slot text split as get_slots splits it, a saved edit makes the doctor's rows exactly the chosen days × the listed times |
| AdminRoutes.RequestedByTimes | routes/admin.py:216-229 | with time labels entered, a row is requested exactly when its day is chosen, its start is one of the times and it lasts 30 minutes |
| AdminRoutes.EditDoctorFixedSchedulesEnteredTimes | routes/admin.py:212-230 | entering the times as comma-separated labels with known days saves, with exactly the chosen days at exactly those times |
| AdminRoutes.DoctorCounts | routes/admin.py:174-179 | today, completed and pending count the doctor's appointments dated today, COMPLETED and BOOKED; completed + pending and today each stay within the total |
| AdminRoutes.RowOf | routes/admin.py:276-291 | a patient's row describes the patient: the name on its account, the age property, the number of its appointments, and one of them no other of its appointments is later than (none exactly when there are none) |
| AdminRoutes.PatientOverview | routes/admin.py:265-293 | non-admins are turned away; an admin gets a server error exactly when some patient has no account row to read the name from; otherwise one row per patient, in table order, row i giving patient i's account name, age, appointment count and latest appointment |
| AdminRoutes.DropFirst | routes/admin.py:322-323 | deleting appt.treatment removes one treatment of that appointment, if any, and no other appointment's |
| AdminRoutes.DropEach | routes/admin.py:321-324 | each listed appointment loses at most one treatment, exactly one when listed once; unlisted ones lose none |
| AdminRoutes.KeptAppointments | routes/admin.py:321-324 | the appointments left are exactly those of other patients |
| AdminRoutes.IdsOfPatient | routes/admin.py:321 | the patient's appointment ids, one per appointment |
| AdminRoutes.CascadeTreatments | routes/admin.py:321-324 | an appointment of the patient with at most one treatment keeps none; other appointments keep all theirs |
| AdminRoutes.DropUser | routes/admin.py:318-328 | the account row goes when it exists |
| AdminRoutes.DeletePatient | routes/admin.py:310-332 | a server error with nothing deleted exactly when the patient's account also holds a doctor profile (NOT NULL Doctor.user_id, models.py:11, 15); otherwise no appointment of the patient remains and no other is touched, the patient row and its account go, treatments only shrink, and those of other appointments stay |
| AdminRoutes.DeletePatientLeavesSecondTreatment | routes/admin.py:322-323 | an appointment with two treatments keeps one after its patient is deleted |
| Auth.UserByEmail | run.py:14 | the first account with the email, none when there is none |
| Auth.Login | run.py:13-31 | an account is signed in exactly when the form validates and the first account with the email has a matching password; then Admin goes to the admin dashboard, a Doctor without profile to setup, a Doctor with profile to the admin dashboard, anyone else to the patient page |
| Auth.DoctorWithProfileLandsOnAdminDashboard | run.py:21-25 | a Doctor with a profile lands on the admin dashboard |
| Auth.Register | run.py:39-67 | both taken: no account, to login; exactly one taken: no account and the username message on the username field; neither: exactly one new account with the submitted fields, the hashed password and a non-Admin role |
| Auth.RegisterKeepsUsersUnique | models.py:6-8 | registration keeps usernames and emails unique |
| Auth.TakenEmailReportedAsUsername | run.py:50-51 | a taken email alone is reported as a taken username |
| Auth.DoctorSetupWith | run.py:74-87 | with a valid form, one doctor row is added for the signed-in account (any role), its days the comma-join of the codes, which splits back into them; a second profile for the account fails |
| Auth.DayCodesRoundTrip | run.py:83 | the joined day codes split back into the chosen codes |
| Auth.DoctorSetup | run.py:78-84 | as written, the stored slot text is the entered text's characters joined by commas |
| Auth.InterleavedSlotsReadAsCharacters | run.py:78 | that text reads back from get_slots one character per slot, none of which is a time |
| Auth.DoctorSetupStoresCharacters | run.py:78 | entering "09:00" stores five slots, "0", "9", ":", "0", "0" |
| Auth.DoctorSetupFixed | run.py:78-84 | storing the slot text as entered |
| Auth.DoctorSetupFixedKeepsSlots | run.py:78-84 | times entered as comma-separated labels read back as exactly those times |
| Auth.SecondSetupFails | models.py:15 | a second setup for the same account breaks the unique user_id and changes nothing |
| Lifecycle.BookIgnoresExistingBookings | routes/patients.py:180-190 | a booking adds one BOOKED row at its slot however many rows already hold it |
| Lifecycle.DoubleBooking | routes/patients.py:177-190 | submitting the same booking twice saves twice, and the slot is then held at least twice |
| Lifecycle.TreatCompletesCancelled | routes/doctor.py:68-79 | a CANCELLED appointment can be treated and becomes COMPLETED |
| Lifecycle.TreatTwiceAddsTwoTreatments | routes/doctor.py:68-79 | treating the same appointment twice saves twice and adds two treatments |
| Lifecycle.UpdateStatusReopens | routes/doctor.py:97-100 | a status update can turn CANCELLED back into BOOKED |
| Lifecycle.CancelReleasesSlot | routes/patients.py:134-135 | a cancel lowers the number of BOOKED rows holding the slot by one |
| Lifecycle.CancelOnlyCancels | routes/patients.py:130-135 | after a cancel every row is unchanged or CANCELLED |
| Lifecycle.TreatedAppointmentCannotBeDeleted | routes/doctor.py:69-79 | once treated, an appointment can be deleted neither by its patient nor by an admin |
| Lifecycle.PatientTurnedDoctorCannotBeDeleted | run.py:73-87 | doctor_setup checks no role, so a patient's account can take a doctor profile, after which deleting that patient fails |

## Left out

- Flask routing, templates, `flash`, redirects and `abort`: outcomes are values of `Outcome`, `Route` and `RegisterReply`.
- Flask-Login sessions: the signed-in account is a parameter.
- SQLAlchemy query machinery: queries are filters and sorts over the tables.
  - Relationship lists such as `patient.appointments` are taken in table order.
- Unique constraints not reached by a handler are not enforced by the store.
- WTForms internals: `validate_on_submit()` is an input, conjoined with the field checks the model states.
  - `AppointmentForm.patient_id` (forms.py:34) is a SelectField whose choices no handler sets. WTForms' SelectField pre-validation raises TypeError when its choices are None, so as written every POST of an AppointmentForm ends in a server error inside `validate_on_submit()`. The model takes validation as an input and does not show that error; the lines below name the members it affects.
  - A POST to the admin edit that omits the date or time field is read as empty text. Form(obj=appt) would keep the appointment's own value there; only the doctor field's default is modelled.
  - The `Email()` validator is an input too.
- Password hashing and checking: opaque function parameters.
- `date.today()`, `strftime('%A')` and the calendar: `today` and `weekday` are parameters.
  - strptime is modelled for ASCII digits only.
  - The locale is taken to give English weekday names.
- `DayOfWeek`, `AppointmentStatus` and `DoctorAvailability` are not defined in the code. The day enum is a table of member names, and the rows are `Availability` records.
  - `AppointmentStatus` is taken to have exactly the members the routes name: BOOKED, COMPLETED and CANCELLED.
  - `Appointment.status` is a plain String(50) column (models.py:40). The model stores the member the routes assign to it, not a text.
- AdminRoutes.EditAppointment: saves on a valid POST; as written the unset patient_id choices make that validation raise first, so the route never saves.
- PatientRoutes.Book: saves on a valid form; as written the unset patient_id choices make that validation raise first.
- PatientRoutes.BookFromSlots: the corrected booking also needs patient_id choices (or no patient_id field) to save.
- PatientRoutes.EditAppointmentFromSlots: the corrected edit also needs patient_id choices (or no patient_id field) to save.
- PatientRoutes.EditAppointment: as written the unset patient_id choices make validation raise before any save. It also stores the parsed time. The source assigns the submitted text to the Time column (routes/patients.py:90). What the database layer does with text there is not modelled.
- The admin dashboard and appointment list (routes/admin.py:7-39) are not modelled: read-only listings outside the scheduling core.
- The doctors list with its SQL aggregate (routes/admin.py:134-149) is not modelled. Its per-doctor counts are covered by `AdminRoutes.DoctorCounts`.
- view_doctor_detail's grouping of slots by day (routes/admin.py:164-172) is left out. Only its counters are modelled.
- edit_doctor's GET pre-fill (routes/admin.py:201-208) is left out: it changes no data.
- delete_doctor, view_patient, edit_patient and the patient's edit_profile are not modelled: they are outside the scheduling core.
- The post-commit flash in edit_doctor reads `doctor.user.name` (routes/admin.py:232) and could raise after the commit. The model treats a commit as final.
- Login's patient redirect names the endpoint `patient_dashboard` (run.py:29), which no blueprint registers. The model records only the intended destination.
- `Patient.user_id`, read by delete_patient (routes/admin.py:318), `Patient.user`, read by view_appt (routes/admin.py:34) and view_patients (routes/admin.py:286), and `User.patient_profile` are not declared in models.py. The model gives each patient the account id the routes assume, and reads `p.user` as the account with that id.
- AdminRoutes.PatientOverview: as written `Patient` has no `user` attribute, so any non-empty patient list raises AttributeError, a server error. The model assumes the link the route expects and fails only when a patient's account row is missing.
- Concurrency and transaction isolation: each request is one atomic step.
- app.py (application wiring and the admin seed) and routes/routes.py (imports) are not part of this model.
- routes/patients.py:4 imports `PatientSetupForm`, which forms.py does not define, so as written the application fails at import. The model treats each handler as loadable.
- Python's `str.strip` is modelled with the Unicode whitespace set. `upper` is modelled for ASCII letters only.

## Findings

| source | as written | input that shows it | evidently intended | confidence | as-written member | corrected member |
|---|---|---|---|---|---|---|
| routes/admin.py:214-219 | `selected_slots` is the StringField's text, so the loop walks its characters and `strptime('%H:%M')` fails on the first one | any valid edit, e.g. days ["Mon"] and slots "09:00": the first slot is "0", which does not parse, so the edit rolls back | split the text into slots as `get_slots` does; the doctor then gets exactly the chosen days × the entered times (`AdminRoutes.EditDoctorFixedSchedulesEnteredTimes`) | high; not executed | AdminRoutes.EditDoctor | AdminRoutes.EditDoctorFixed |
| run.py:78-79 | `",".join(...)` is applied to the slot text, a string, so a comma goes between every two characters | "09:00" is stored as "0,9,:,0,0", which `get_slots` reads as five slots (`Auth.DoctorSetupStoresCharacters`) | store the comma-separated text as entered; it reads back as the entered times (`Auth.DoctorSetupFixedKeepsSlots`) | high; not executed | Auth.DoctorSetup | Auth.DoctorSetupFixed |
| routes/patients.py:172 | `AppointmentForm()` is built without slots, so the time field has no choices and no submitted time passes its check; validation in fact raises TypeError first on the unset patient_id choices, a server error | any booking, e.g. a valid doctor, date "2030-01-07", time "09:00" and a problem | offer the doctor's slots for the chosen date as the time choices (and give patient_id choices or drop the field); a saved booking then starts at one of the doctor's slots | high; not executed | PatientRoutes.BookAsWritten | PatientRoutes.BookFromSlots |
| routes/patients.py:82 | the patient's edit builds `AppointmentForm()` without slots in the same way; here too validation raises TypeError first on the unset patient_id choices | any edit of an owned, future, BOOKED appointment | offer the doctor's slots for the chosen date (and give patient_id choices or drop the field); a saved edit then lies on one of the doctor's slots | high; not executed | PatientRoutes.EditAppointmentAsWritten | PatientRoutes.EditAppointmentFromSlots |

=== FILE: admin_routes.dfy ===
/**
 * The admin blueprint (routes/admin.py): editing and deleting an
 * appointment, replacing a doctor's weekly schedule, the per-doctor
 * counters, the patient overview and deleting a patient with their
 * appointments. Every handler first turns away an account whose role is not
 * Admin.
 */
module AdminRoutes {
  import opened Optional
  import opened Text
  import opened Clock
  import opened Seqs
  import opened Models
  import opened Database
  import opened Forms
  import opened Schedule
  import opened Listings

  /** The doctor and date whose slots the edit form offers. */
  datatype Target = Target(doctorId: int, date: Date)

  /**
   * On a POST the posted doctor and date take over from the appointment's
   * own. An absent doctor field defaults to the appointment's doctor; one
   * that is not an integer raises ValueError before the date is read, so
   * both stay the appointment's. A date that is empty or does not parse is
   * ignored.
   */
  function TargetOf(appt: Appointment, isPost: bool, form: AppointmentInput): (r: Target)
    ensures !isPost || form.doctor.NotAnInteger? ==> r == Target(appt.doctorId, appt.date)
    ensures isPost && form.doctor.Absent? ==> r.doctorId == appt.doctorId
    ensures isPost && form.doctor.Posted? ==> r.doctorId == form.doctor.id
    ensures isPost && !form.doctor.NotAnInteger? ==>
      r.date == (if ParseDate(form.dateText).Some? then ParseDate(form.dateText).value else appt.date)
  {
    if !isPost then Target(appt.doctorId, appt.date)
    else
      var d := match form.doctor
        case Absent => Some(appt.doctorId)
        case NotAnInteger => None
        case Posted(id) => Some(id);
      match d
      case None => Target(appt.doctorId, appt.date)
      case Some(id) =>
        if form.dateText != "" then
          match ParseDate(form.dateText)
          case Some(date) => Target(id, date)
          case None => Target(id, appt.date)
        else Target(id, appt.date)
  }

  /** Every element is the HH:MM label of some time of day. */
  predicate AreLabels(xs: seq<string>)
  {
    forall i :: 0 <= i < |xs| ==> exists t: Time :: xs[i] == Label(t)
  }

  /** The start labels of rows ordered by start time are in string order too. */
  lemma SortedStartLabels(rows: seq<Availability>)
    requires forall i, j :: 0 <= i < j < |rows| ==> rows[i].start <= rows[j].start
    ensures SortedBy(StartLabels(rows), StringLe)
  {
    var labels := StartLabels(rows);
    forall i, j | 0 <= i < j < |labels| ensures StringLe(labels[i], labels[j]) {
      LabelMonotone(rows[i].start, rows[j].start);
    }
  }

  /**
   * The doctor's rows on a weekday ordered by start time, as HH:MM labels:
   * sorted as strings, and holding the label of exactly those rows.
   */
  function OrderedSlots(rows: seq<Availability>, doctorId: int, day: Day): (r: seq<string>)
    ensures SortedBy(r, StringLe)
    ensures forall l :: l in r <==> exists x :: x in rows && x.doctorId == doctorId && x.day == day && Label(x.start) == l
    ensures AreLabels(r)
  {
    var on := RowsOn(rows, doctorId, day);
    var sorted := ByStart(on);
    SortedStartLabels(sorted);
    forall l ensures l in StartLabels(sorted) <==> exists x :: x in rows && x.doctorId == doctorId && x.day == day && Label(x.start) == l {
      StartLabelsMembership(sorted, l);
      forall x ensures x in sorted <==> x in on {
        assert x in sorted <==> x in multiset(sorted);
        assert x in on <==> x in multiset(on);
      }
    }
    StartLabels(sorted)
  }

  /** The target doctor's start times on the target date's weekday, ordered by start time; none for doctor id 0. */
  function TargetSlots(s: Store, table: DayTable, weekday: Date -> Day, target: Target): (r: Option<seq<string>>)
    ensures r.None? <==> target.doctorId != 0 && WeekdayKey(weekday(target.date)) !in table
    ensures r.Some? ==> SortedBy(r.value, StringLe)
    ensures r.Some? ==> forall l :: l in r.value <==>
      target.doctorId != 0 && exists x :: HeldOn(s.availability, table, weekday, target.doctorId, target.date, x) && Label(x.start) == l
    ensures r.Some? ==> AreLabels(r.value)
  {
    if target.doctorId == 0 then Some([])
    else
      match DayOfDate(table, weekday, target.date)
      case None => None
      case Some(day) => Some(OrderedSlots(s.availability, target.doctorId, day))
  }

  /** Sorting after appending the current label keeps every fact about the labels. */
  lemma WithCurrentFacts(labels: seq<string>, current: Time, sorted: seq<string>)
    requires multiset(sorted) == multiset(labels + [Label(current)])
    requires AreLabels(labels)
    ensures forall l :: l in sorted <==> l == Label(current) || l in labels
    ensures AreLabels(sorted)
  {
    forall l ensures l in sorted <==> l == Label(current) || l in labels {
      assert l in sorted <==> l in multiset(sorted);
      assert l in labels + [Label(current)] <==> l in multiset(labels + [Label(current)]);
    }
    forall i | 0 <= i < |sorted| ensures exists t: Time :: sorted[i] == Label(t) {
      assert sorted[i] in sorted;
      if sorted[i] != Label(current) {
        var k :| 0 <= k < |labels| && labels[k] == sorted[i];
      }
    }
  }

  /**
   * The edit form's time choices: the target's slots, plus the appointment's
   * own time when it is missing, then re-sorted. None where the weekday's
   * name is not a DayOfWeek member (the KeyError is not caught). The result
   * is sorted and always offers the current time.
   */
  function AdminTimeChoices(s: Store, table: DayTable, weekday: Date -> Day, appt: Appointment, target: Target)
    : (r: Option<seq<string>>)
    ensures r.None? <==> TargetSlots(s, table, weekday, target).None?
    ensures r.Some? ==> SortedBy(r.value, StringLe)
    ensures r.Some? ==> Label(appt.time) in r.value
    ensures r.Some? ==> forall l :: l in r.value <==> l == Label(appt.time) || l in TargetSlots(s, table, weekday, target).value
    ensures r.Some? ==> AreLabels(r.value)
  {
    match TargetSlots(s, table, weekday, target)
    case None => None
    case Some(labels) =>
      if Label(appt.time) in labels then Some(labels)
      else
        StringLeIsTotalPreorder();
        var sorted := Sort(labels + [Label(appt.time)], StringLe);
        WithCurrentFacts(labels, appt.time, sorted);
        Some(sorted)
  }

  /** A choice the form offers always names a clock time. */
  lemma ChoiceParses(choices: seq<string>, time: string)
    requires AreLabels(choices)
    requires AmongChoices(time, TimeChoices(Some(choices)))
    ensures ParseTime(time).Some? && Label(ParseTime(time).value) == time
  {
    TimeChoicesOffersTheSlots(Some(choices), time);
    var k :| 0 <= k < |choices| && choices[k] == time;
    var t: Time :| choices[k] == Label(t);
    ParseLabel(t);
  }

  /** get_or_404 after the Admin role check: the row's index or the outcome. */
  datatype Lookup = Found(index: nat) | Halt(outcome: Outcome)

  function LookupAppointment(s: Store, me: User, apptId: int): (r: Lookup)
    ensures r.Found? <==> me.role == "Admin" && FindAppointment(s, apptId).Some?
    ensures r.Found? ==> r.index == FindAppointment(s, apptId).value && r.index < |s.appointments|
    ensures r == Halt(AccessDenied) <==> me.role != "Admin"
    ensures r.Halt? ==> r.outcome == AccessDenied || r.outcome == NotFound
  {
    if me.role != "Admin" then Halt(AccessDenied)
    else
      match FindAppointment(s, apptId)
      case None => Halt(NotFound)
      case Some(i) => Found(i)
  }

  /**
   * The admin's appointment edit. With a valid form the doctor, date, time
   * and problem are replaced and nothing else changes; the chosen time is
   * always one of the offered labels, so the strptime inside the try never
   * fails and the edit is never rolled back. A weekday name the enum lacks
   * ends the request with a server error before the form is looked at.
   */
  function EditAppointment(s: Store, me: User, table: DayTable, weekday: Date -> Day, apptId: int,
                           isPost: bool, validated: bool, form: AppointmentInput): (r: Step)
    ensures Atomic(s, r)
    ensures r.outcome != RolledBack
    ensures r.outcome == ServerError <==>
      LookupAppointment(s, me, apptId).Found? &&
      var a := s.appointments[LookupAppointment(s, me, apptId).index];
      AdminTimeChoices(s, table, weekday, a, TargetOf(a, isPost, form)).None?
    ensures r.outcome == Saved <==>
      LookupAppointment(s, me, apptId).Found? &&
      var a := s.appointments[LookupAppointment(s, me, apptId).index];
      var choices := AdminTimeChoices(s, table, weekday, a, TargetOf(a, isPost, form));
      choices.Some? && isPost && validated && AppointmentValid(WithObjectDoctor(form, a.doctorId), DoctorChoiceIds(s), TimeChoices(choices))
    ensures r.outcome == Saved ==>
      var i := LookupAppointment(s, me, apptId).index;
      var a := s.appointments[i];
      var doctor := if form.doctor.Posted? then form.doctor.id else a.doctorId;
      && ParseTime(form.time).Some? && Label(ParseTime(form.time).value) == form.time
      && OnlyAppointmentChanged(s, r.store, i, a.(doctorId := doctor, date := ParseDate(form.dateText).value,
                                                  time := ParseTime(form.time).value, problem := Some(form.problem)))
  {
    match LookupAppointment(s, me, apptId)
    case Halt(o) => Step(s, o)
    case Found(i) =>
      var a := s.appointments[i];
      match AdminTimeChoices(s, table, weekday, a, TargetOf(a, isPost, form))
      case None => Step(s, ServerError)
      case Some(choices) =>
        var bound := WithObjectDoctor(form, a.doctorId);
        if !(isPost && validated && AppointmentValid(bound, DoctorChoiceIds(s), TimeChoices(Some(choices)))) then Step(s, FormShown)
        else
          ChoiceParses(choices, form.time);
          var a' := a.(doctorId := DoctorData(bound).value, date := ParseDate(form.dateText).value,
                       time := ParseTime(form.time).value, problem := Some(form.problem));
          Step(s.(appointments := s.appointments[i := a']), Saved)
  }

  /**
   * The admin's appointment delete. Appointment.treatment has no delete
   * cascade and Treatment.appointment_id is NOT NULL, so when the appointment
   * has a treatment the flush sets that column to NULL and the commit fails:
   * a server error with nothing deleted. Otherwise the row goes and nothing
   * else changes.
   */
  function DeleteAppointment(s: Store, me: User, apptId: int): (r: Step)
    ensures Atomic(s, r)
    ensures r.outcome == Saved <==> LookupAppointment(s, me, apptId).Found? && TreatmentsFor(s.treatments, apptId) == 0
    ensures r.outcome == ServerError <==> LookupAppointment(s, me, apptId).Found? && TreatmentsFor(s.treatments, apptId) > 0
    ensures r.outcome == Saved ==>
      var i := LookupAppointment(s, me, apptId).index;
      && r.store == s.(appointments := s.appointments[..i] + s.appointments[i + 1..])
      && multiset(r.store.appointments) + multiset{s.appointments[i]} == multiset(s.appointments)
      && forall t :: t in r.store.treatments ==> t.appointmentId != apptId
  {
    match LookupAppointment(s, me, apptId)
    case Halt(o) => Step(s, o)
    case Found(i) =>
      if TreatmentsFor(s.treatments, apptId) > 0 then Step(s, ServerError)
      else
        NoTreatmentsLeft(s.treatments, apptId);
        assert s.appointments == s.appointments[..i] + [s.appointments[i]] + s.appointments[i + 1..];
        Step(s.(appointments := s.appointments[..i] + s.appointments[i + 1..]), Saved)
  }

  /**
   * edit_doctor with the slot field read as the list slotLabels: the
   * specialization is updated and the doctor's schedule replaced by the
   * day-time product in one commit, or, when the loops raise, everything is
   * rolled back.
   */
  function EditDoctorWith(s: Store, me: User, table: DayTable, doctorId: int, validated: bool, specialization: string,
                          dayCodes: seq<string>, slotsText: string, slotLabels: seq<string>): (r: Step)
    ensures Atomic(s, r)
    ensures me.role != "Admin" ==> r.outcome == AccessDenied
    ensures r.outcome == Saved <==>
      me.role == "Admin" && FindDoctor(s, doctorId).Some? && DoctorSetupValid(validated, specialization, dayCodes, slotsText)
      && !ScheduleRaises(table, dayCodes, slotLabels)
    ensures r.outcome == RolledBack <==>
      me.role == "Admin" && FindDoctor(s, doctorId).Some? && DoctorSetupValid(validated, specialization, dayCodes, slotsText)
      && ScheduleRaises(table, dayCodes, slotLabels)
    ensures r.outcome == Saved ==>
      var k := FindDoctor(s, doctorId).value;
      && r.store == s.(doctors := s.doctors[k := s.doctors[k].(specialization := specialization)],
                       availability := r.store.availability)
      && Others(r.store.availability, doctorId) == Others(s.availability, doctorId)
      && (forall x: Availability :: x.doctorId == doctorId ==>
            (x in r.store.availability <==> Requested(x, doctorId, table, dayCodes, slotLabels)))
  {
    if me.role != "Admin" then Step(s, AccessDenied)
    else
      match FindDoctor(s, doctorId)
      case None => Step(s, NotFound)
      case Some(k) =>
        if !DoctorSetupValid(validated, specialization, dayCodes, slotsText) then Step(s, FormShown)
        else
          match ReplaceSchedule(s.availability, doctorId, table, dayCodes, slotLabels)
          case None => Step(s, RolledBack)
          case Some(rows) =>
            Step(s.(doctors := s.doctors[k := s.doctors[k].(specialization := specialization)], availability := rows), Saved)
  }

  /**
   * edit_doctor as written: the slot field is a StringField, so the loop
   * walks its characters, and no single character is a time. A valid edit
   * is therefore always rolled back.
   */
  function EditDoctor(s: Store, me: User, table: DayTable, doctorId: int, validated: bool, specialization: string,
                      dayCodes: seq<string>, slotsText: string): (r: Step)
    ensures r.outcome != Saved
    ensures r.store == s
    ensures me.role == "Admin" && FindDoctor(s, doctorId).Some? && DoctorSetupValid(validated, specialization, dayCodes, slotsText)
      ==> r.outcome == RolledBack
  {
    var chars := Characters(slotsText);
    if DoctorSetupValid(validated, specialization, dayCodes, slotsText) then
      assert Strip("") == "";
      SingleCharacterIsNotTime(slotsText[0]);
      assert ParseTime(chars[0]).None?;
      EditDoctorWith(s, me, table, doctorId, validated, specialization, dayCodes, slotsText, chars)
    else
      EditDoctorWith(s, me, table, doctorId, validated, specialization, dayCodes, slotsText, chars)
  }

  /**
   * edit_doctor with the slot field split as get_slots splits it: the
   * doctor's schedule becomes every chosen day at every listed time.
   */
  function EditDoctorFixed(s: Store, me: User, table: DayTable, doctorId: int, validated: bool, specialization: string,
                           dayCodes: seq<string>, slotsText: string): (r: Step)
    ensures Atomic(s, r)
    ensures r.outcome == Saved <==>
      me.role == "Admin" && FindDoctor(s, doctorId).Some? && DoctorSetupValid(validated, specialization, dayCodes, slotsText)
      && !ScheduleRaises(table, dayCodes, GetSlots(Some(slotsText)))
    ensures r.outcome == Saved ==>
      && Others(r.store.availability, doctorId) == Others(s.availability, doctorId)
      && forall x: Availability :: x.doctorId == doctorId ==>
           (x in r.store.availability <==> Requested(x, doctorId, table, dayCodes, GetSlots(Some(slotsText))))
  {
    EditDoctorWith(s, me, table, doctorId, validated, specialization, dayCodes, slotsText, GetSlots(Some(slotsText)))
  }

  /** A row is requested by time labels exactly when its start is one of the times. */
  lemma RequestedByTimes(x: Availability, doctorId: int, table: DayTable, dayCodes: seq<string>, times: seq<Time>)
    requires forall i :: 0 <= i < |dayCodes| ==> Upper(dayCodes[i]) in table
    ensures Requested(x, doctorId, table, dayCodes, TimeLabels(times)) <==>
      && x.doctorId == doctorId
      && (exists i :: 0 <= i < |dayCodes| && table[Upper(dayCodes[i])] == x.day)
      && x.start in times && x.end == AddMinutes(x.start, SlotMinutes)
  {
    var labels := TimeLabels(times);
    if exists j :: 0 <= j < |labels| && ParseTime(labels[j]) == Some(x.start) {
      var j :| 0 <= j < |labels| && ParseTime(labels[j]) == Some(x.start);
      ParseLabel(times[j]);
    }
    if x.start in times {
      var j :| 0 <= j < |times| && times[j] == x.start;
      ParseLabel(times[j]);
      assert ParseTime(labels[j]) == Some(x.start);
    }
    if exists i :: 0 <= i < |dayCodes| && table[Upper(dayCodes[i])] == x.day {
      var i :| 0 <= i < |dayCodes| && table[Upper(dayCodes[i])] == x.day;
      assert LookupDay(table, Upper(dayCodes[i])) == Some(x.day);
    }
  }

  /** Times entered as comma-separated labels read back as those labels, and every one parses. */
  lemma TimeLabelsParse(table: DayTable, dayCodes: seq<string>, times: seq<Time>)
    requires |times| > 0
    requires forall i :: 0 <= i < |dayCodes| ==> Upper(dayCodes[i]) in table
    ensures GetSlots(Some(Join(TimeLabels(times), ','))) == TimeLabels(times)
    ensures !ScheduleRaises(table, dayCodes, TimeLabels(times))
  {
    var labels := TimeLabels(times);
    SlotsOfTimeLabels(times);
    forall j | 0 <= j < |labels| ensures ParseTime(labels[j]).Some? {
      ParseLabel(times[j]);
    }
  }

  /**
   * Entering the times as their HH:MM labels separated by commas, with days
   * the enum knows, the corrected edit saves, and the doctor's rows are
   * exactly the chosen days at exactly those times.
   */
  lemma EditDoctorFixedSchedulesEnteredTimes(s: Store, me: User, table: DayTable, doctorId: int, specialization: string,
                                             dayCodes: seq<string>, times: seq<Time>)
    requires me.role == "Admin" && FindDoctor(s, doctorId).Some?
    requires |times| > 0
    requires DoctorSetupValid(true, specialization, dayCodes, Join(TimeLabels(times), ','))
    requires forall i :: 0 <= i < |dayCodes| ==> Upper(dayCodes[i]) in table
    ensures var r := EditDoctorFixed(s, me, table, doctorId, true, specialization, dayCodes, Join(TimeLabels(times), ','));
      && r.outcome == Saved
      && forall x: Availability :: x.doctorId == doctorId ==>
           (x in r.store.availability <==>
              (exists i :: 0 <= i < |dayCodes| && table[Upper(dayCodes[i])] == x.day)
              && x.start in times && x.end == AddMinutes(x.start, SlotMinutes))
  {
    var text := Join(TimeLabels(times), ',');
    TimeLabelsParse(table, dayCodes, times);
    var r := EditDoctorFixed(s, me, table, doctorId, true, specialization, dayCodes, text);
    assert r.outcome == Saved;
    forall x: Availability | x.doctorId == doctorId
      ensures x in r.store.availability <==>
        (exists i :: 0 <= i < |dayCodes| && table[Upper(dayCodes[i])] == x.day)
        && x.start in times && x.end == AddMinutes(x.start, SlotMinutes)
    {
      RequestedByTimes(x, doctorId, table, dayCodes, times);
    }
  }

  function OfDoctor(doctorId: int): Appointment -> bool
  {
    (a: Appointment) => a.doctorId == doctorId
  }

  function OnDay(day: Date): Appointment -> bool
  {
    (a: Appointment) => a.date == day
  }

  function InStatus(status: Status): Appointment -> bool
  {
    (a: Appointment) => a.status == status
  }

  datatype Counts = Counts(today: nat, completed: nat, pending: nat, total: nat)

  /** The number of the doctor's appointments satisfying p. */
  function CountOf(s: Store, doctorId: int, p: Appointment -> bool): nat
  {
    |Filter(Filter(s.appointments, OfDoctor(doctorId)), p)|
  }

  /**
   * view_doctor_detail's counters over the doctor's appointments: those
   * today, those COMPLETED and those BOOKED. Completed and pending never add
   * up to more than the total, nor does today's count exceed it.
   */
  function DoctorCounts(s: Store, me: User, doctorId: int, today: Date): (r: Page<Counts>)
    ensures me.role != "Admin" ==> r == Refused(AccessDenied)
    ensures me.role == "Admin" ==> (r == Refused(NotFound) <==> FindDoctor(s, doctorId).None?)
    ensures r.Refused? ==> r.outcome == AccessDenied || r.outcome == NotFound
    ensures r.Shown? ==> r.value.total == |Filter(s.appointments, OfDoctor(doctorId))|
    ensures r.Shown? ==> r.value.completed + r.value.pending <= r.value.total
    ensures r.Shown? ==> r.value.today <= r.value.total
    ensures r.Shown? ==> r.value == Counts(CountOf(s, doctorId, OnDay(today)), CountOf(s, doctorId, InStatus(Completed)),
                                            CountOf(s, doctorId, InStatus(Booked)), r.value.total)
  {
    if me.role != "Admin" then Refused(AccessDenied)
    else if FindDoctor(s, doctorId).None? then Refused(NotFound)
    else
      var mine := Filter(s.appointments, OfDoctor(doctorId));
      FilterDisjointCount(mine, InStatus(Completed), InStatus(Booked));
      Shown(Counts(CountOf(s, doctorId, OnDay(today)), CountOf(s, doctorId, InStatus(Completed)),
                   CountOf(s, doctorId, InStatus(Booked)), |mine|))
  }

  datatype PatientRow = PatientRow(patient: Patient, name: string, age: int, latest: Option<Appointment>, total: nat)

  /** The patient's account row exists, so `p.user.name` can be read. */
  predicate HasAccount(s: Store, p: Patient)
  {
    FindUser(s, p.userId).Some?
  }

  function OwnedBy(patientId: int): Appointment -> bool
  {
    (a: Appointment) => a.patientId == patientId
  }

  /**
   * One row of the patient list: the account's name, the age, the latest of
   * the patient's appointments by (date, time) (the first such when several
   * tie), and how many there are.
   */
  function RowOf(s: Store, today: Date, p: Patient): (r: PatientRow)
    requires HasAccount(s, p)
    ensures Describes(s, today, p, r)
  {
    var mine := Filter(s.appointments, OwnedBy(p.id));
    var latest := match Latest(mine) case None => None case Some(k) => Some(mine[k]);
    assert forall a :: a in mine <==> a in s.appointments && a.patientId == p.id by {
      forall a ensures a in mine <==> a in s.appointments && a.patientId == p.id {
        FilterMembership(s.appointments, OwnedBy(p.id), a);
      }
    }
    assert latest.Some? ==> forall a :: a in mine ==> NoLater(a, latest.value) by {
      if latest.Some? {
        forall a | a in mine ensures NoLater(a, latest.value) {
          var j :| 0 <= j < |mine| && mine[j] == a;
        }
      }
    }
    PatientRow(p, s.users[FindUser(s, p.userId).value].name, Age(p.dob, today), latest, |mine|)
  }

  /**
   * What a row of the patient list says about p: the name on its account,
   * its age in whole years on today, how many appointments it has, and, when
   * it has any, one of them that none of the others is later than.
   */
  predicate Describes(s: Store, today: Date, p: Patient, row: PatientRow)
  {
    && row.patient == p
    && (exists u :: u in s.users && u.id == p.userId && u.name == row.name)
    && !Before(today, Anniversary(p.dob, row.age)) && Before(today, Anniversary(p.dob, row.age + 1))
    && row.total == |Filter(s.appointments, OwnedBy(p.id))|
    && (row.latest.None? <==> row.total == 0)
    && (row.latest.Some? ==> row.latest.value in s.appointments && row.latest.value.patientId == p.id)
    && (row.latest.Some? ==> forall a :: a in s.appointments && a.patientId == p.id ==> NoLater(a, row.latest.value))
  }

  /**
   * view_patients: one row per patient, in table order. Reading the name of a
   * patient whose account row is missing raises, so then nothing is shown.
   */
  function PatientOverview(s: Store, me: User, today: Date): (r: Page<seq<PatientRow>>)
    ensures me.role != "Admin" <==> r == Refused(AccessDenied)
    ensures me.role == "Admin" ==>
      (r == Refused(ServerError) <==> exists i :: 0 <= i < |s.patients| && !HasAccount(s, s.patients[i]))
    ensures r.Shown? ==> |r.value| == |s.patients|
    ensures r.Shown? ==> forall i :: 0 <= i < |s.patients| ==> Describes(s, today, s.patients[i], r.value[i])
  {
    if me.role != "Admin" then Refused(AccessDenied)
    else if exists i :: 0 <= i < |s.patients| && !HasAccount(s, s.patients[i]) then Refused(ServerError)
    else Shown(seq(|s.patients|, i requires 0 <= i < |s.patients| && HasAccount(s, s.patients[i]) => RowOf(s, today, s.patients[i])))
  }

  function OneFewer(n: nat): nat
  {
    if n == 0 then 0 else n - 1
  }

  /**
   * `if appt.treatment: db.session.delete(appt.treatment)`: the relationship
   * is one-to-one, so only the first treatment of the appointment is
   * deleted; the count of every other appointment's treatments is unchanged.
   */
  function DropFirst(ts: seq<Treatment>, apptId: int): (r: seq<Treatment>)
    ensures multiset(r) <= multiset(ts)
    ensures TreatmentsFor(r, apptId) == OneFewer(TreatmentsFor(ts, apptId))
    ensures forall other :: other != apptId ==> TreatmentsFor(r, other) == TreatmentsFor(ts, other)
  {
    match Find(ts, ForAppointment(apptId))
    case None =>
      FilterNone(ts, ForAppointment(apptId));
      ts
    case Some(k) =>
      var r := ts[..k] + ts[k + 1..];
      assert ts == ts[..k] + [ts[k]] + ts[k + 1..];
      FilterRemoveCount(ts, k, ForAppointment(apptId));
      assert forall other :: other != apptId ==> TreatmentsFor(r, other) == TreatmentsFor(ts, other) by {
        forall other | other != apptId ensures TreatmentsFor(r, other) == TreatmentsFor(ts, other) {
          FilterRemoveCount(ts, k, ForAppointment(other));
        }
      }
      r
  }

  /** DropFirst for each appointment id in turn. */
  function DropEach(ts: seq<Treatment>, ids: seq<int>): (r: seq<Treatment>)
    ensures multiset(r) <= multiset(ts)
    ensures forall id :: id !in ids ==> TreatmentsFor(r, id) == TreatmentsFor(ts, id)
    ensures forall id :: id in ids ==> TreatmentsFor(r, id) <= OneFewer(TreatmentsFor(ts, id))
    ensures forall id :: multiset(ids)[id] == 1 ==> TreatmentsFor(r, id) == OneFewer(TreatmentsFor(ts, id))
  {
    if |ids| == 0 then ts
    else
      var first := DropFirst(ts, ids[0]);
      var rest := ids[1..];
      var r := DropEach(first, rest);
      assert ids == [ids[0]] + rest;
      assert multiset(ids) == multiset{ids[0]} + multiset(rest);
      forall id | id !in ids ensures TreatmentsFor(r, id) == TreatmentsFor(ts, id) {
        assert id != ids[0] && id !in rest;
      }
      forall id | id in ids ensures TreatmentsFor(r, id) <= OneFewer(TreatmentsFor(ts, id)) {
        if id != ids[0] {
          assert id in rest;
        }
      }
      forall id | multiset(ids)[id] == 1 ensures TreatmentsFor(r, id) == OneFewer(TreatmentsFor(ts, id)) {
        if id == ids[0] {
          assert multiset(rest)[id] == 0;
        } else {
          assert multiset(rest)[id] == 1;
        }
      }
      r
  }

  /** The appointments that do not belong to the patient, in table order. */
  function KeptAppointments(appts: seq<Appointment>, patientId: int): (r: seq<Appointment>)
    ensures forall a :: a in r <==> a in appts && a.patientId != patientId
  {
    var keep := (a: Appointment) => a.patientId != patientId;
    assert forall a :: a in Filter(appts, keep) <==> a in appts && keep(a) by {
      forall a { FilterMembership(appts, keep, a); }
    }
    Filter(appts, keep)
  }

  /** The ids of the patient's appointments (patient.appointments). */
  function IdsOfPatient(appts: seq<Appointment>, patientId: int): (r: seq<int>)
    ensures forall a :: a in appts && a.patientId == patientId ==> a.id in r
    ensures forall id :: id in r ==> exists a :: a in appts && a.patientId == patientId && a.id == id
    ensures |r| == |Filter(appts, OwnedBy(patientId))|
  {
    var mine := Filter(appts, OwnedBy(patientId));
    var ids := AppointmentIds(mine);
    forall a | a in appts && a.patientId == patientId ensures a.id in ids {
      FilterMembership(appts, OwnedBy(patientId), a);
      var j :| 0 <= j < |mine| && mine[j] == a;
      assert ids[j] == a.id;
    }
    forall id | id in ids ensures exists a :: a in appts && a.patientId == patientId && a.id == id {
      var j :| 0 <= j < |ids| && ids[j] == id;
      FilterMembership(appts, OwnedBy(patientId), mine[j]);
    }
    ids
  }

  /**
   * The treatments left after the cascade: one fewer for each of the
   * patient's appointments, so none for an appointment that had at most one,
   * and the same number for every other appointment.
   */
  function CascadeTreatments(ts: seq<Treatment>, appts: seq<Appointment>, patientId: int): (r: seq<Treatment>)
    ensures multiset(r) <= multiset(ts)
    ensures forall a :: a in appts && a.patientId == patientId && TreatmentsFor(ts, a.id) <= 1 ==> TreatmentsFor(r, a.id) == 0
    ensures forall id :: (forall a :: a in appts && a.patientId == patientId ==> a.id != id) ==>
      TreatmentsFor(r, id) == TreatmentsFor(ts, id)
  {
    DropEach(ts, IdsOfPatient(appts, patientId))
  }

  /** The account row removed, when there is one. */
  function DropUser(users: seq<User>, found: Option<nat>): (r: seq<User>)
    requires found.Some? ==> found.value < |users|
    ensures found.None? ==> r == users
    ensures found.Some? ==> multiset(r) + multiset{users[found.value]} == multiset(users)
  {
    match found
    case None => users
    case Some(j) =>
      assert users == users[..j] + [users[j]] + users[j + 1..];
      users[..j] + users[j + 1..]
  }

  /**
   * The patient's account also owns a doctor profile. User.doctor_profile has
   * no delete cascade and Doctor.user_id is NOT NULL, so deleting that
   * account makes the flush null the column and the commit fail.
   */
  predicate AccountHoldsDoctor(s: Store, userId: int)
  {
    FindUser(s, userId).Some? && DoctorProfile(s, userId).Some?
  }

  /**
   * delete_patient: the patient's appointments, the first treatment of each,
   * the patient row and its account all go in one commit. No appointment of
   * the patient remains, nothing else of the appointments table changes, and
   * every appointment that had at most one treatment keeps none. When the
   * account also holds a doctor profile the commit fails and nothing goes.
   */
  function DeletePatient(s: Store, me: User, patientId: int): (r: Step)
    ensures Atomic(s, r)
    ensures r.outcome == Saved <==>
      me.role == "Admin" && FindPatient(s, patientId).Some?
      && !AccountHoldsDoctor(s, s.patients[FindPatient(s, patientId).value].userId)
    ensures r.outcome == ServerError <==>
      me.role == "Admin" && FindPatient(s, patientId).Some?
      && AccountHoldsDoctor(s, s.patients[FindPatient(s, patientId).value].userId)
    ensures r.outcome == Saved ==> forall a :: a in r.store.appointments <==> a in s.appointments && a.patientId != patientId
    ensures r.outcome == Saved ==> multiset(r.store.treatments) <= multiset(s.treatments)
    ensures r.outcome == Saved ==> forall a :: a in s.appointments && a.patientId == patientId && TreatmentsFor(s.treatments, a.id) <= 1 ==>
      TreatmentsFor(r.store.treatments, a.id) == 0
    ensures r.outcome == Saved ==> forall id :: (forall a :: a in s.appointments && a.patientId == patientId ==> a.id != id) ==>
      TreatmentsFor(r.store.treatments, id) == TreatmentsFor(s.treatments, id)
    ensures r.outcome == Saved ==>
      var k := FindPatient(s, patientId).value;
      var u := FindUser(s, s.patients[k].userId);
      && multiset(r.store.patients) + multiset{s.patients[k]} == multiset(s.patients)
      && (u.None? ==> r.store.users == s.users)
      && (u.Some? ==> multiset(r.store.users) + multiset{s.users[u.value]} == multiset(s.users))
      && (u.Some? ==> forall j :: 0 <= j < |s.doctors| ==> s.doctors[j].userId != s.users[u.value].id)
      && r.store.doctors == s.doctors && r.store.availability == s.availability
  {
    if me.role != "Admin" then Step(s, AccessDenied)
    else
      match FindPatient(s, patientId)
      case None => Step(s, NotFound)
      case Some(k) =>
        var p := s.patients[k];
        if AccountHoldsDoctor(s, p.userId) then Step(s, ServerError)
        else
          assert s.patients == s.patients[..k] + [p] + s.patients[k + 1..];
          Step(Store(DropUser(s.users, FindUser(s, p.userId)), s.doctors, s.patients[..k] + s.patients[k + 1..],
                     KeptAppointments(s.appointments, p.id), CascadeTreatments(s.treatments, s.appointments, p.id),
                     s.availability), Saved)
  }

  /**
   * The one-to-one relationship hides extra treatments: a patient whose only
   * appointment has two treatments loses one of them, and the other stays
   * behind pointing at a deleted appointment.
   */
  lemma DeletePatientLeavesSecondTreatment(s: Store, me: User, patientId: int, a: Appointment)
    requires me.role == "Admin" && FindPatient(s, patientId).Some?
    requires !AccountHoldsDoctor(s, s.patients[FindPatient(s, patientId).value].userId)
    requires Filter(s.appointments, OwnedBy(patientId)) == [a]
    requires TreatmentsFor(s.treatments, a.id) == 2
    ensures DeletePatient(s, me, patientId).outcome == Saved
    ensures TreatmentsFor(DeletePatient(s, me, patientId).store.treatments, a.id) == 1
  {
    var ids := IdsOfPatient(s.appointments, patientId);
    FilterMembership(s.appointments, OwnedBy(patientId), a);
    assert a.id in ids;
    assert ids == [a.id];
  }

}

=== FILE: auth.dfy ===
/**
 * The account pages in run.py: signing in and where each role is sent,
 * self-registration with its duplicate checks, and the first-time doctor
 * profile setup. Password hashing and checking are supplied as functions.
 */
module Auth {
  import opened Optional
  import opened Text
  import opened Clock
  import opened Seqs
  import opened Models
  import opened Database
  import opened Forms
  import opened Schedule

  /** Where a login request ends up. */
  datatype Route =
    | AdminDashboard   // admin.dashboard
    | SetupPage        // doctor_setup
    | PatientHome      // the patient dashboard endpoint
    | LoginFailed      // "Login Failed", the form again
    | LoginForm        // validate_on_submit() was false

  datatype LoginResult = LoginResult(route: Route, signedIn: Option<User>)

  /** User.query.filter_by(email=...).first() */
  function UserByEmail(users: seq<User>, email: string): (r: Option<nat>)
    ensures r.Some? ==> r.value < |users| && users[r.value].email == email
    ensures r.Some? ==> forall j :: 0 <= j < r.value ==> users[j].email != email
    ensures r.None? <==> forall j :: 0 <= j < |users| ==> users[j].email != email
  {
    Find(users, (u: User) => u.email == email)
  }

  /** LoginForm's validators; whether the address passes Email() is supplied. */
  predicate LoginValid(email: string, password: string, emailWellFormed: bool)
  {
    DataRequired(email) && emailWellFormed && DataRequired(password)
  }

  /**
   * login: the first account with the email, if the password checks out,
   * is signed in. An Admin and a Doctor with a profile go to the admin
   * dashboard, a Doctor without one to the setup page, every other role to
   * the patient's dashboard.
   */
  function Login(s: Store, validated: bool, email: string, password: string, emailWellFormed: bool,
                 checkHash: (string, string) -> bool): (r: LoginResult)
    ensures r.route == LoginForm <==> !(validated && LoginValid(email, password, emailWellFormed))
    ensures r.signedIn.Some? <==> r.route in {AdminDashboard, SetupPage, PatientHome}
    ensures r.signedIn.Some? <==>
      validated && LoginValid(email, password, emailWellFormed) && UserByEmail(s.users, email).Some?
      && checkHash(s.users[UserByEmail(s.users, email).value].password, password)
    ensures r.signedIn.Some? ==> r.signedIn.value == s.users[UserByEmail(s.users, email).value]
    ensures r.signedIn.Some? ==> (r.route == SetupPage <==> r.signedIn.value.role == "Doctor" && DoctorProfile(s, r.signedIn.value.id).None?)
    ensures r.signedIn.Some? ==> (r.route == PatientHome <==> r.signedIn.value.role !in {"Admin", "Doctor"})
  {
    if !(validated && LoginValid(email, password, emailWellFormed)) then LoginResult(LoginForm, None)
    else
      match UserByEmail(s.users, email)
      case None => LoginResult(LoginFailed, None)
      case Some(j) =>
        var u := s.users[j];
        if !checkHash(u.password, password) then LoginResult(LoginFailed, None)
        else if u.role == "Admin" then LoginResult(AdminDashboard, Some(u))
        else if u.role == "Doctor" then
          if DoctorProfile(s, u.id).None? then LoginResult(SetupPage, Some(u)) else LoginResult(AdminDashboard, Some(u))
        else LoginResult(PatientHome, Some(u))
  }

  /**
   * A Doctor who has set up a profile lands on the admin dashboard, the same
   * page as an Admin, rather than on a doctor page.
   */
  lemma DoctorWithProfileLandsOnAdminDashboard(s: Store, email: string, password: string, emailWellFormed: bool,
                                               checkHash: (string, string) -> bool)
    requires LoginValid(email, password, emailWellFormed)
    requires UserByEmail(s.users, email).Some?
    requires var u := s.users[UserByEmail(s.users, email).value];
      u.role == "Doctor" && DoctorProfile(s, u.id).Some? && checkHash(u.password, password)
    ensures Login(s, true, email, password, emailWellFormed, checkHash).route == AdminDashboard
  {
  }

  /** How registration answers. */
  datatype RegisterReply =
    | Created                                  // "Account created", to login
    | ExistingAccount                          // both taken: "Please login", to login
    | FieldError(field: string, message: string) // an error shown under a form field
    | RegisterForm                             // validate_on_submit() was false

  datatype Registration = Registration(store: Store, reply: RegisterReply)

  const UsernameTaken := "This username is already taken. Choose a different one."

  predicate UsernameInUse(users: seq<User>, username: string)
  {
    exists j :: 0 <= j < |users| && users[j].username == username
  }

  predicate EmailInUse(users: seq<User>, email: string)
  {
    exists j :: 0 <= j < |users| && users[j].email == email
  }

  /**
   * register: an account is added only when neither the username nor the
   * email is in use, storing the hash of the password. When only one of
   * them is in use, the username field carries the username message,
   * whichever of the two it was.
   */
  function Register(s: Store, validated: bool, f: RegisterInput, emailWellFormed: bool, hash: string -> string): (r: Registration)
    ensures r.reply != Created ==> r.store == s
    ensures r.reply == RegisterForm <==> !(validated && RegisterValid(f, emailWellFormed))
    ensures r.reply == ExistingAccount <==>
      validated && RegisterValid(f, emailWellFormed) && UsernameInUse(s.users, f.username) && EmailInUse(s.users, f.email)
    ensures r.reply == FieldError("username", UsernameTaken) <==>
      validated && RegisterValid(f, emailWellFormed) && UsernameInUse(s.users, f.username) != EmailInUse(s.users, f.email)
    ensures r.reply == Created <==>
      validated && RegisterValid(f, emailWellFormed) && !UsernameInUse(s.users, f.username) && !EmailInUse(s.users, f.email)
    ensures r.reply == Created ==>
      && |r.store.users| == |s.users| + 1
      && r.store == s.(users := s.users + [r.store.users[|s.users|]])
      && var u := r.store.users[|s.users|];
      && u.id !in UserIds(s.users)
      && u == User(u.id, f.username, f.name, f.email, hash(f.password), f.role)
      && u.role != "Admin"
  {
    if !(validated && RegisterValid(f, emailWellFormed)) then Registration(s, RegisterForm)
    else
      var byUsername := UsernameInUse(s.users, f.username);
      var byEmail := EmailInUse(s.users, f.email);
      if byUsername && byEmail then Registration(s, ExistingAccount)
      else if byUsername then Registration(s, FieldError("username", UsernameTaken))
      else if byEmail then Registration(s, FieldError("username", UsernameTaken))
      else
        RegisterValidRole(f, emailWellFormed);
        var id := NextId(UserIds(s.users));
        assert id !in UserIds(s.users);
        var u := User(id, f.username, f.name, f.email, hash(f.password), f.role);
        Registration(s.(users := s.users + [u]), Created)
  }

  /** Registration keeps usernames and emails unique. */
  lemma RegisterKeepsUsersUnique(s: Store, validated: bool, f: RegisterInput, emailWellFormed: bool, hash: string -> string)
    requires UniqueUsers(s.users)
    ensures UniqueUsers(Register(s, validated, f, emailWellFormed, hash).store.users)
  {
    var r := Register(s, validated, f, emailWellFormed, hash);
    if r.reply == Created {
      var users := r.store.users;
      forall i, j | 0 <= i < j < |users| ensures users[i].username != users[j].username && users[i].email != users[j].email {
        if j == |s.users| {
          assert users[i] == s.users[i];
        }
      }
    }
  }

  /** A taken email alone is reported as a taken username. */
  lemma TakenEmailReportedAsUsername(s: Store, f: RegisterInput, emailWellFormed: bool, hash: string -> string)
    requires RegisterValid(f, emailWellFormed)
    requires !UsernameInUse(s.users, f.username) && EmailInUse(s.users, f.email)
    ensures Register(s, true, f, emailWellFormed, hash) == Registration(s, FieldError("username", UsernameTaken))
  {
  }

  /**
   * doctor_setup with the stored slot text supplied: one Doctor row for the
   * signed-in account, whatever its role, with the day codes joined by
   * commas. A second setup for the same account breaks the unique user_id
   * and the commit fails.
   */
  function DoctorSetupWith(s: Store, me: User, validated: bool, specialization: string, dayCodes: seq<string>,
                           slotsText: string, storedSlots: string): (r: Step)
    ensures Atomic(s, r)
    ensures r.outcome == Saved <==> DoctorSetupValid(validated, specialization, dayCodes, slotsText) && DoctorProfile(s, me.id).None?
    ensures r.outcome == ServerError <==> DoctorSetupValid(validated, specialization, dayCodes, slotsText) && DoctorProfile(s, me.id).Some?
    ensures r.outcome == Saved ==>
      && |r.store.doctors| == |s.doctors| + 1
      && r.store == s.(doctors := s.doctors + [r.store.doctors[|s.doctors|]])
      && var d := r.store.doctors[|s.doctors|];
      && d.id !in DoctorIds(s.doctors)
      && d == Doctor(d.id, me.id, specialization, Join(dayCodes, ','), Some(storedSlots))
      && Split(d.availableDays, ',') == dayCodes
  {
    if !DoctorSetupValid(validated, specialization, dayCodes, slotsText) then Step(s, FormShown)
    else if DoctorProfile(s, me.id).Some? then Step(s, ServerError)
    else
      DayCodesRoundTrip(dayCodes);
      var id := NextId(DoctorIds(s.doctors));
      assert id !in DoctorIds(s.doctors);
      Step(s.(doctors := s.doctors + [Doctor(id, me.id, specialization, Join(dayCodes, ','), Some(storedSlots))]), Saved)
  }

  /** The form's day codes contain no comma, so the joined days split back into them. */
  lemma DayCodesRoundTrip(dayCodes: seq<string>)
    requires |dayCodes| > 0
    requires forall i :: 0 <= i < |dayCodes| ==> AmongChoices(dayCodes[i], DayChoices)
    ensures Split(Join(dayCodes, ','), ',') == dayCodes
  {
    forall i | 0 <= i < |dayCodes| ensures ',' !in dayCodes[i] {
      DayCodeIsClean(dayCodes[i]);
    }
    SplitJoin(dayCodes, ',');
  }

  /**
   * doctor_setup as written: the slot field is a string, so joining it puts
   * a comma between every two characters.
   */
  function DoctorSetup(s: Store, me: User, validated: bool, specialization: string, dayCodes: seq<string>, slotsText: string)
    : (r: Step)
    ensures Atomic(s, r)
    ensures r.outcome == Saved <==> DoctorSetupValid(validated, specialization, dayCodes, slotsText) && DoctorProfile(s, me.id).None?
    ensures r.outcome == Saved ==>
      && |r.store.doctors| == |s.doctors| + 1
      && r.store.doctors[|s.doctors|].availableSlots == Some(Join(Characters(slotsText), ','))
  {
    DoctorSetupWith(s, me, validated, specialization, dayCodes, slotsText, Join(Characters(slotsText), ','))
  }

  /**
   * What the written slot text reads back as: a text of several
   * non-blank, comma-free characters comes back from get_slots one
   * character per slot, never as the entered time.
   */
  lemma InterleavedSlotsReadAsCharacters(slotsText: string)
    requires |slotsText| >= 2
    requires forall i :: 0 <= i < |slotsText| ==> !IsSpace(slotsText[i]) && slotsText[i] != ','
    ensures GetSlots(Some(Join(Characters(slotsText), ','))) == Characters(slotsText)
    ensures forall k :: 0 <= k < |slotsText| ==> ParseTime(Characters(slotsText)[k]).None?
  {
    var cs := Characters(slotsText);
    forall i | 0 <= i < |cs| ensures Stripped(cs[i]) && ',' !in cs[i] {
      assert cs[i] == [slotsText[i]];
    }
    assert Join(cs, ',') == cs[0] + [','] + Join(cs[1..], ',');
    GetSlotsOfJoin(cs);
    forall k | 0 <= k < |slotsText| ensures ParseTime(cs[k]).None? {
      SingleCharacterIsNotTime(slotsText[k]);
    }
  }

  /** The doctor that entered "09:00" as its one slot is stored with five slots, none of them a time. */
  lemma DoctorSetupStoresCharacters(s: Store, me: User, specialization: string, dayCodes: seq<string>)
    requires DoctorSetupValid(true, specialization, dayCodes, "09:00") && DoctorProfile(s, me.id).None?
    ensures var r := DoctorSetup(s, me, true, specialization, dayCodes, "09:00");
      && r.outcome == Saved
      && GetSlots(r.store.doctors[|s.doctors|].availableSlots) == ["0", "9", ":", "0", "0"]
  {
    var r := DoctorSetup(s, me, true, specialization, dayCodes, "09:00");
    assert r.store.doctors[|s.doctors|].availableSlots == Some(Join(Characters("09:00"), ','));
    TimeTextIsClean();
    InterleavedSlotsReadAsCharacters("09:00");
    CharactersOfTime();
  }

  lemma TimeTextIsClean()
    ensures forall i :: 0 <= i < |"09:00"| ==> !IsSpace("09:00"[i]) && "09:00"[i] != ','
  {
    var text := "09:00";
    assert text[0] == '0' && text[1] == '9' && text[2] == ':' && text[3] == '0' && text[4] == '0';
  }

  lemma CharactersOfTime()
    ensures Characters("09:00") == ["0", "9", ":", "0", "0"]
  {
  }

  /**
   * doctor_setup as evidently intended: the slot text is stored as entered,
   * so times entered as comma-separated HH:MM labels read back as exactly
   * those labels.
   */
  function DoctorSetupFixed(s: Store, me: User, validated: bool, specialization: string, dayCodes: seq<string>, slotsText: string)
    : (r: Step)
    ensures Atomic(s, r)
    ensures r.outcome == Saved <==> DoctorSetupValid(validated, specialization, dayCodes, slotsText) && DoctorProfile(s, me.id).None?
    ensures r.outcome == Saved ==>
      && |r.store.doctors| == |s.doctors| + 1
      && r.store.doctors[|s.doctors|].availableSlots == Some(slotsText)
  {
    DoctorSetupWith(s, me, validated, specialization, dayCodes, slotsText, slotsText)
  }

  /** Entered times come back from the corrected setup as the same times. */
  lemma DoctorSetupFixedKeepsSlots(s: Store, me: User, specialization: string, dayCodes: seq<string>, times: seq<Time>)
    requires |times| > 0
    requires DoctorSetupValid(true, specialization, dayCodes, Join(TimeLabels(times), ',')) && DoctorProfile(s, me.id).None?
    ensures var r := DoctorSetupFixed(s, me, true, specialization, dayCodes, Join(TimeLabels(times), ','));
      && r.outcome == Saved
      && var slots := GetSlots(r.store.doctors[|s.doctors|].availableSlots);
      && |slots| == |times|
      && forall k :: 0 <= k < |times| ==> ParseTime(slots[k]) == Some(times[k])
  {
    SlotsOfTimeLabels(times);
    forall k | 0 <= k < |times| ensures ParseTime(TimeLabels(times)[k]) == Some(times[k]) {
      ParseLabel(times[k]);
    }
  }

  /** A second setup for the same account fails and changes nothing. */
  lemma SecondSetupFails(s: Store, me: User, specialization: string, dayCodes: seq<string>, slotsText: string)
    requires DoctorSetupValid(true, specialization, dayCodes, slotsText) && DoctorProfile(s, me.id).None?
    ensures var s1 := DoctorSetupFixed(s, me, true, specialization, dayCodes, slotsText).store;
      DoctorSetupFixed(s1, me, true, specialization, dayCodes, slotsText) == Step(s1, ServerError)
  {
    var s1 := DoctorSetupFixed(s, me, true, specialization, dayCodes, slotsText).store;
    var d := s1.doctors[|s.doctors|];
    assert d.userId == me.id;
  }

}

=== FILE: clock.dfy ===
/**
 * Times of day, calendar dates, weekdays and ages, as the application handles
 * them through Python's datetime module: strftime('%H:%M') labels,
 * strptime('%H:%M') and strptime('%Y-%m-%d') parsing, wrap-around at
 * midnight, and the year-difference age formula.
 */
module Clock {
  import opened Optional
  import opened Text

  const MinutesPerDay := 1440

  /** A time of day at minute precision, hh * 60 + mm; every time the application creates has zero seconds. */
  type Time = m: int | 0 <= m < 1440

  /** Every availability row the schedule editor writes is this long. */
  const SlotMinutes := 30

  /** datetime.combine(day, t) + timedelta(minutes=n), then .time(): the clock wraps past midnight. */
  function AddMinutes(t: Time, n: nat): Time
  {
    (t + n) % MinutesPerDay
  }

  /** The time of day a slot starting at `start` ends. */
  lemma SlotEndWraps(start: Time)
    ensures start < MinutesPerDay - SlotMinutes ==> AddMinutes(start, SlotMinutes) == start + SlotMinutes
    ensures start >= MinutesPerDay - SlotMinutes ==> AddMinutes(start, SlotMinutes) == start + SlotMinutes - MinutesPerDay
  {
  }

  /** t.strftime('%H:%M'): zero-padded 24-hour "hh:mm" (ISO 8601 extended local time, section 4.2.2.3). */
  function Label(t: Time): (r: string)
    ensures |r| == 5 && r[2] == ':'
  {
    Pad2(t / 60) + ":" + Pad2(t % 60)
  }

  /** What the %H field of strptime accepts: 2[0-3] | [0-1]\d | \d. */
  predicate HourToken(s: string)
  {
    AllDigits(s) && (|s| == 1 || (|s| == 2 && Decimal(s) <= 23))
  }

  /** What the %M field of strptime accepts: [0-5]\d | \d. */
  predicate MinuteToken(s: string)
  {
    AllDigits(s) && (|s| == 1 || (|s| == 2 && Decimal(s) <= 59))
  }

  lemma SingleDigitValue(s: string)
    requires AllDigits(s) && |s| == 1
    ensures Decimal(s) == DigitValue(s[0]) < 10
  {
    assert s[..0] == [];
  }

  lemma TokenBounds(h: string, m: string)
    requires HourToken(h) && MinuteToken(m)
    ensures Decimal(h) <= 23 && Decimal(m) <= 59
  {
    if |h| == 1 { SingleDigitValue(h); }
    if |m| == 1 { SingleDigitValue(m); }
  }

  /**
   * datetime.strptime(s, '%H:%M').time(): an hour field, a colon and a minute
   * field covering the whole string; None where strptime raises ValueError.
   */
  function ParseTime(s: string): (r: Option<Time>)
    ensures r.Some? ==> ':' in s
  {
    if ':' !in s then None
    else
      var k := IndexOf(s, ':');
      var h := s[..k];
      var m := s[k + 1..];
      if HourToken(h) && MinuteToken(m) then
        TokenBounds(h, m);
        Some(Decimal(h) * 60 + Decimal(m))
      else None
  }

  /** Parsing a label gives back the time it was printed from. */
  lemma ParseLabel(t: Time)
    ensures ParseTime(Label(t)) == Some(t)
  {
    var s := Label(t);
    var h := Pad2(t / 60);
    var m := Pad2(t % 60);
    assert s == h + ":" + m;
    assert s[..2] == h && s[3..] == m;
    assert ':' !in h by {
      forall i | 0 <= i < |h| ensures h[i] != ':' {
        assert IsDigit(h[i]);
      }
    }
    assert s[..2] == h;
    assert IndexOf(s, ':') == 2;
  }

  /** A five-character string that parses is the label of the time it denotes. */
  lemma ParsedLabelIsCanonical(s: string)
    requires |s| == 5 && ParseTime(s).Some?
    ensures Label(ParseTime(s).value) == s
  {
    var k := IndexOf(s, ':');
    var h := s[..k];
    var m := s[k + 1..];
    assert |h| <= 2 && |m| <= 2;
    assert k == 2 && |h| == 2 && |m| == 2;
    var t := ParseTime(s).value;
    assert t == Decimal(h) * 60 + Decimal(m);
    assert t / 60 == Decimal(h) && t % 60 == Decimal(m);
    PadDecimal(h);
    PadDecimal(m);
    assert s == h + ":" + m;
  }

  lemma PadDecimal(s: string)
    requires |s| == 2 && AllDigits(s)
    ensures Decimal(s) < 100 && Pad2(Decimal(s)) == s
  {
    assert s[..1] == [s[0]] && s[..1][..0] == [];
    assert Decimal(s[..1]) == DigitValue(s[0]);
    assert Decimal(s) == DigitValue(s[0]) * 10 + DigitValue(s[1]);
    var p := Pad2(Decimal(s));
    assert DigitValue(p[0]) == DigitValue(s[0]) && DigitValue(p[1]) == DigitValue(s[1]);
  }

  /** A one-character string never parses as a time: no hour field fits before a colon. */
  lemma SingleCharacterIsNotTime(c: char)
    ensures ParseTime([c]) == None
  {
    if ':' in [c] {
      assert IndexOf([c], ':') == 0;
      assert [c][..0] == [];
    }
  }

  /** strptime's single-digit fields: "9:5" is 09:05. */
  lemma ShortFieldsParse()
    ensures ParseTime("9:5") == Some(9 * 60 + 5)
  {
    assert IndexOf("9:5", ':') == 1;
    SingleDigitValue("9");
    SingleDigitValue("5");
  }

  lemma SplitQuotient(x: int, y: int, b: int)
    requires b == 60 || b == 10
    requires 0 <= x && 0 <= y
    ensures x < y <==> (x / b < y / b || (x / b == y / b && x % b < y % b))
  {
  }

  /** Label text order (Python's str comparison, as list.sort() applies it) is time order. */
  lemma LabelOrder(a: Time, b: Time)
    ensures a < b <==> Less(Label(a), Label(b))
  {
    var x, y := Label(a), Label(b);
    var ha, ma, hb, mb := a / 60, a % 60, b / 60, b % 60;
    SplitQuotient(a, b, 60);
    SplitQuotient(ha, hb, 10);
    SplitQuotient(ma, mb, 10);
    assert x == [DigitChar(ha / 10), DigitChar(ha % 10), ':', DigitChar(ma / 10), DigitChar(ma % 10)];
    assert y == [DigitChar(hb / 10), DigitChar(hb % 10), ':', DigitChar(mb / 10), DigitChar(mb % 10)];
    LessFiveChars(x, y);
  }

  lemma LessFiveChars(x: string, y: string)
    requires |x| == 5 && |y| == 5
    ensures Less(x, y) <==>
      (x[0] < y[0] || (x[0] == y[0] && (x[1] < y[1] || (x[1] == y[1] && (x[2] < y[2] || (x[2] == y[2] &&
      (x[3] < y[3] || (x[3] == y[3] && x[4] < y[4]))))))))
  {
    var x1, y1 := x[1..], y[1..];
    var x2, y2 := x1[1..], y1[1..];
    var x3, y3 := x2[1..], y2[1..];
    var x4, y4 := x3[1..], y3[1..];
    assert Less(x4, y4) <==> (x4[0] < y4[0]) by {
      assert x4[1..] == [] && y4[1..] == [];
    }
    assert Less(x3, y3) <==> (if x3[0] == y3[0] then Less(x4, y4) else x3[0] < y3[0]);
    assert Less(x2, y2) <==> (if x2[0] == y2[0] then Less(x3, y3) else x2[0] < y2[0]);
    assert Less(x1, y1) <==> (if x1[0] == y1[0] then Less(x2, y2) else x1[0] < y1[0]);
    assert Less(x, y) <==> (if x[0] == y[0] then Less(x1, y1) else x[0] < y[0]);
  }

  /** A calendar date; ordered chronologically, which for valid dates is (year, month, day) order. */
  datatype Date = Date(year: int, month: int, day: int)

  /** a < b on datetime.date. */
  predicate Before(a: Date, b: Date)
  {
    a.year < b.year || (a.year == b.year && (a.month < b.month || (a.month == b.month && a.day < b.day)))
  }

  predicate IsLeapYear(y: int)
  {
    y % 4 == 0 && (y % 100 != 0 || y % 400 == 0)
  }

  function DaysInMonth(y: int, m: int): int
  {
    if m == 2 then (if IsLeapYear(y) then 29 else 28)
    else if m == 4 || m == 6 || m == 9 || m == 11 then 30
    else 31
  }

  /** A date datetime.date accepts: years 1..9999 of the proleptic Gregorian calendar. */
  predicate ValidDate(d: Date)
  {
    1 <= d.year <= 9999 && 1 <= d.month <= 12 && 1 <= d.day <= DaysInMonth(d.year, d.month)
  }

  /** date.isoformat(): "YYYY-MM-DD" (ISO 8601 extended calendar date, section 4.1.2.2). */
  function IsoFormat(d: Date): string
    requires ValidDate(d)
  {
    Pad4(d.year) + "-" + Pad2(d.month) + "-" + Pad2(d.day)
  }

  /** What the %m field of strptime accepts: 1[0-2] | 0[1-9] | [1-9]. */
  predicate MonthToken(s: string)
  {
    AllDigits(s) && ((|s| == 1 && s[0] != '0') || (|s| == 2 && 1 <= Decimal(s) <= 12))
  }

  /** What the %d field of strptime accepts: 3[01] | [12]\d | 0[1-9] | [1-9] | " "[1-9]. */
  predicate DayToken(s: string)
  {
    || (AllDigits(s) && ((|s| == 1 && s[0] != '0') || (|s| == 2 && 1 <= Decimal(s) <= 31)))
    || (|s| == 2 && s[0] == ' ' && IsDigit(s[1]) && s[1] != '0')
  }

  function DayTokenValue(s: string): int
    requires DayToken(s)
  {
    if s[0] == ' ' then DigitValue(s[1]) else Decimal(s)
  }

  /**
   * datetime.strptime(s, '%Y-%m-%d').date(): four year digits, a hyphen, a
   * month field, a hyphen and a day field covering the whole string, naming a
   * real date; None where strptime raises ValueError.
   */
  function ParseDate(s: string): (r: Option<Date>)
    ensures r.Some? ==> ValidDate(r.value)
  {
    if |s| < 5 || !(AllDigits(s[..4])) || s[4] != '-' then None
    else
      var rest := s[5..];
      if '-' !in rest then None
      else
        var k := IndexOf(rest, '-');
        var m := rest[..k];
        var d := rest[k + 1..];
        if MonthToken(m) && DayToken(d) then
          var date := Date(Decimal(s[..4]), Decimal(m), DayTokenValue(d));
          if ValidDate(date) then Some(date) else None
        else None
  }

  /** Every valid date round-trips through its ISO form. */
  lemma ParseIsoFormat(d: Date)
    requires ValidDate(d)
    ensures ParseDate(IsoFormat(d)) == Some(d)
  {
    var s := IsoFormat(d);
    var y, m, dd := Pad4(d.year), Pad2(d.month), Pad2(d.day);
    assert s == y + "-" + m + "-" + dd;
    assert s[..4] == y && s[4] == '-';
    var rest := s[5..];
    assert rest == m + "-" + dd;
    assert rest[..2] == m;
    assert '-' !in m by {
      forall i | 0 <= i < |m| ensures m[i] != '-' {
        assert IsDigit(m[i]);
      }
    }
    assert IndexOf(rest, '-') == 2;
    assert rest[3..] == dd;
  }

  /** The days of the week, as datetime numbers them from Monday. */
  datatype Day = Monday | Tuesday | Wednesday | Thursday | Friday | Saturday | Sunday

  /** date.strftime('%A') under the C locale. */
  function EnglishName(d: Day): string
  {
    match d
    case Monday => "Monday"
    case Tuesday => "Tuesday"
    case Wednesday => "Wednesday"
    case Thursday => "Thursday"
    case Friday => "Friday"
    case Saturday => "Saturday"
    case Sunday => "Sunday"
  }

  /** (a.month, a.day) < (b.month, b.day) as Python compares tuples. */
  predicate MonthDayBefore(a: Date, b: Date)
  {
    a.month < b.month || (a.month == b.month && a.day < b.day)
  }

  /** The date `years` years after d, ignoring whether it exists (29 February). */
  function Anniversary(d: Date, years: int): Date
  {
    Date(d.year + years, d.month, d.day)
  }

  /**
   * today.year - dob.year - ((today.month, today.day) < (dob.month, dob.day)):
   * the number of birthdays that have passed, so the age-th anniversary is on
   * or before today and the next one is after it.
   */
  function Age(dob: Date, today: Date): (age: int)
    ensures !Before(today, Anniversary(dob, age))
    ensures Before(today, Anniversary(dob, age + 1))
  {
    today.year - dob.year - (if MonthDayBefore(today, dob) then 1 else 0)
  }

  /** The age is the only count of years with that property. */
  lemma AgeUnique(dob: Date, today: Date, n: int)
    requires !Before(today, Anniversary(dob, n)) && Before(today, Anniversary(dob, n + 1))
    ensures n == Age(dob, today)
  {
  }

  /** Nobody born on or before today has a negative age. */
  lemma AgeNonNegative(dob: Date, today: Date)
    requires !Before(today, dob)
    ensures Age(dob, today) >= 0
  {
  }

}

=== FILE: database.dfy ===
/**
 * The database as one immutable value, and what a request does to it. Each
 * request is one atomic step: it either commits (outcome Saved) or leaves
 * the store exactly as it found it (refusal, unvalidated form, rollback, or
 * an uncaught exception, after which nothing was committed).
 */
module Database {
  import opened Optional
  import opened Clock
  import opened Seqs
  import opened Models

  /** The tables, each in row-insertion order. */
  datatype Store = Store(
    users: seq<User>,
    doctors: seq<Doctor>,
    patients: seq<Patient>,
    appointments: seq<Appointment>,
    treatments: seq<Treatment>,
    availability: seq<Availability>)

  /** How a request ended. */
  datatype Outcome =
    | Saved                       // db.session.commit() ran
    | AccessDenied                // role check failed: "Access denied", redirect to login
    | NotFound                    // get_or_404 found no row
    | Forbidden                   // abort(403): the record belongs to someone else
    | PastDate                    // the appointment's date is before today
    | WrongStatus(status: Status) // the appointment is not in the status the action needs
    | AlreadyReviewed             // rating and remarks are both already set
    | FormShown                   // validate_on_submit() was false: the form is rendered again
    | InvalidStatus               // the submitted status is not an AppointmentStatus name
    | RolledBack                  // an exception was caught and the session rolled back
    | ServerError                 // an exception escaped the handler before any commit

  datatype Step = Step(store: Store, outcome: Outcome)

  /** A read-only page: the data it shows, or the outcome that replaced it. */
  datatype Page<T> = Shown(value: T) | Refused(outcome: Outcome)

  /** Every request that does not commit leaves the store as it was. */
  predicate Atomic(s: Store, r: Step)
  {
    r.outcome != Saved ==> r.store == s
  }

  function MaxId(ids: seq<int>): (m: int)
    ensures forall i :: 0 <= i < |ids| ==> ids[i] <= m
    ensures m >= 0
  {
    if |ids| == 0 then 0
    else
      var m := MaxId(ids[1..]);
      assert forall i :: 1 <= i < |ids| ==> ids[i] == ids[1..][i - 1];
      if ids[0] > m then ids[0] else m
  }

  /** The key SQLite gives a new row: one more than the largest key in the table. */
  function NextId(ids: seq<int>): (r: int)
    ensures r >= 1
    ensures forall i :: 0 <= i < |ids| ==> ids[i] < r
  {
    MaxId(ids) + 1
  }

  function AppointmentIds(appts: seq<Appointment>): seq<int>
  {
    seq(|appts|, i requires 0 <= i < |appts| => appts[i].id)
  }

  function TreatmentIds(ts: seq<Treatment>): seq<int>
  {
    seq(|ts|, i requires 0 <= i < |ts| => ts[i].id)
  }

  function UserIds(users: seq<User>): seq<int>
  {
    seq(|users|, i requires 0 <= i < |users| => users[i].id)
  }

  function DoctorIds(doctors: seq<Doctor>): seq<int>
  {
    seq(|doctors|, i requires 0 <= i < |doctors| => doctors[i].id)
  }

  /** Appointment.query.get_or_404(id): the row's index, None for 404. */
  function FindAppointment(s: Store, id: int): (r: Option<nat>)
    ensures r.Some? ==> r.value < |s.appointments| && s.appointments[r.value].id == id
    ensures r.None? ==> forall j :: 0 <= j < |s.appointments| ==> s.appointments[j].id != id
  {
    Find(s.appointments, (a: Appointment) => a.id == id)
  }

  function ForAppointment(apptId: int): Treatment -> bool
  {
    (t: Treatment) => t.appointmentId == apptId
  }

  /** How many treatments are recorded for an appointment. */
  function TreatmentsFor(ts: seq<Treatment>, apptId: int): nat
  {
    |Filter(ts, ForAppointment(apptId))|
  }

  /** An appointment with no treatment counted has none in the table. */
  lemma NoTreatmentsLeft(ts: seq<Treatment>, apptId: int)
    requires TreatmentsFor(ts, apptId) == 0
    ensures forall t :: t in ts ==> t.appointmentId != apptId
  {
    forall t | t in ts ensures t.appointmentId != apptId {
      FilterMembership(ts, ForAppointment(apptId), t);
    }
  }

  function FindPatient(s: Store, id: int): (r: Option<nat>)
    ensures r.Some? ==> r.value < |s.patients| && s.patients[r.value].id == id
    ensures r.None? ==> forall j :: 0 <= j < |s.patients| ==> s.patients[j].id != id
  {
    Find(s.patients, (p: Patient) => p.id == id)
  }

  function FindDoctor(s: Store, id: int): (r: Option<nat>)
    ensures r.Some? ==> r.value < |s.doctors| && s.doctors[r.value].id == id
    ensures r.None? ==> forall j :: 0 <= j < |s.doctors| ==> s.doctors[j].id != id
  {
    Find(s.doctors, (d: Doctor) => d.id == id)
  }

  function FindUser(s: Store, id: int): (r: Option<nat>)
    ensures r.Some? ==> r.value < |s.users| && s.users[r.value].id == id
    ensures r.None? ==> forall j :: 0 <= j < |s.users| ==> s.users[j].id != id
  {
    Find(s.users, (u: User) => u.id == id)
  }

  /** current_user.patient_profile: the patient row linked to the account, if any. */
  function PatientProfile(s: Store, userId: int): (r: Option<Patient>)
    ensures r.Some? ==> r.value in s.patients && r.value.userId == userId
    ensures r.None? ==> forall j :: 0 <= j < |s.patients| ==> s.patients[j].userId != userId
  {
    match Find(s.patients, (p: Patient) => p.userId == userId)
    case Some(k) => Some(s.patients[k])
    case None => None
  }

  /** user.doctor_profile: the doctor row linked to the account, if any. */
  function DoctorProfile(s: Store, userId: int): (r: Option<Doctor>)
    ensures r.Some? ==> r.value in s.doctors && r.value.userId == userId
    ensures r.None? ==> forall j :: 0 <= j < |s.doctors| ==> s.doctors[j].userId != userId
  {
    match Find(s.doctors, (d: Doctor) => d.userId == userId)
    case Some(k) => Some(s.doctors[k])
    case None => None
  }

  /** Doctor.query.join(User): the ids of the doctors whose account exists, as the doctor_id choices list them. */
  function DoctorChoiceIds(s: Store): (r: seq<int>)
    ensures forall id :: id in r <==> exists d :: d in s.doctors && d.id == id && d.userId in UserIds(s.users)
  {
    var joined := Filter(s.doctors, (d: Doctor) => d.userId in UserIds(s.users));
    var r := DoctorIds(joined);
    assert forall d :: d in joined <==> d in s.doctors && d.userId in UserIds(s.users) by {
      forall d { FilterMembership(s.doctors, (d: Doctor) => d.userId in UserIds(s.users), d); }
    }
    assert forall id :: id in r ==> exists d :: d in joined && d.id == id by {
      forall id | id in r ensures exists d :: d in joined && d.id == id {
        var k :| 0 <= k < |r| && r[k] == id;
        assert joined[k] in joined;
      }
    }
    assert forall d :: d in joined ==> d.id in r by {
      forall d | d in joined ensures d.id in r {
        var k :| 0 <= k < |joined| && joined[k] == d;
        assert r[k] == d.id;
      }
    }
    r
  }

  predicate DistinctIds(ids: seq<int>)
  {
    forall i, j :: 0 <= i < j < |ids| ==> ids[i] != ids[j]
  }

  /** What the schema guarantees: primary keys are unique, and so are usernames and emails. */
  predicate WellFormed(s: Store)
  {
    && DistinctIds(UserIds(s.users))
    && DistinctIds(DoctorIds(s.doctors))
    && DistinctIds(AppointmentIds(s.appointments))
    && DistinctIds(TreatmentIds(s.treatments))
    && UniqueUsers(s.users)
  }

  /** Appointment row i became a; every other row of every table is as it was. */
  predicate OnlyAppointmentChanged(s: Store, s': Store, i: nat, a: Appointment)
    requires i < |s.appointments|
  {
    s' == s.(appointments := s.appointments[i := a])
  }

  /** The number of BOOKED appointments holding a doctor's slot on a date: the booking ledger's view. */
  function BookedAt(appts: seq<Appointment>, doctorId: int, date: Date, time: Time): nat
  {
    |Filter(appts, (a: Appointment) => a.doctorId == doctorId && a.date == date && a.time == time && a.status == Booked)|
  }

  /** Rewriting a row without touching its id leaves every get_or_404 lookup where it was. */
  lemma FindAppointmentAfterUpdate(s: Store, i: nat, a: Appointment, id: int)
    requires i < |s.appointments| && a.id == s.appointments[i].id
    ensures FindAppointment(s.(appointments := s.appointments[i := a]), id) == FindAppointment(s, id)
  {
    var s1 := s.(appointments := s.appointments[i := a]);
    assert forall j :: 0 <= j < |s.appointments| ==> s1.appointments[j].id == s.appointments[j].id;
  }

}

=== FILE: doctor_routes.dfy ===
/**
 * The doctor blueprint (routes/doctor.py): the dashboard lists, a patient's
 * history with this doctor, recording a treatment, and setting an
 * appointment's status. Every handler first turns away an account whose role
 * is not Doctor; one without a doctor profile fails with an AttributeError,
 * reported as ServerError.
 */
module DoctorRoutes {
  import opened Optional
  import opened Clock
  import opened Seqs
  import opened Models
  import opened Database
  import opened Forms
  import opened Listings

  function Upcoming(doctorId: int, today: Date): Appointment -> bool
  {
    (a: Appointment) => a.doctorId == doctorId && !Before(a.date, today) && a.status == Booked
  }

  function Done(doctorId: int): Appointment -> bool
  {
    (a: Appointment) => a.doctorId == doctorId && a.status == Completed
  }

  datatype Board = Board(doctor: Doctor, upcoming: seq<Appointment>, completed: seq<Appointment>)

  /**
   * The doctor dashboard: exactly this doctor's BOOKED appointments from
   * today on, earliest first, and exactly its COMPLETED ones, latest first.
   */
  function Dashboard(s: Store, me: User, today: Date): (r: Page<Board>)
    ensures me.role != "Doctor" ==> r == Refused(AccessDenied)
    ensures me.role == "Doctor" ==> (r.Refused? <==> DoctorProfile(s, me.id).None?)
    ensures r.Refused? ==> r.outcome == AccessDenied || r.outcome == ServerError
    ensures r.Shown? ==> Some(r.value.doctor) == DoctorProfile(s, me.id)
    ensures r.Shown? ==> forall a :: a in r.value.upcoming <==>
      a in s.appointments && a.doctorId == r.value.doctor.id && !Before(a.date, today) && a.status == Booked
    ensures r.Shown? ==> forall a :: a in r.value.completed <==>
      a in s.appointments && a.doctorId == r.value.doctor.id && a.status == Completed
    ensures r.Shown? ==> SortedBy(r.value.upcoming, NoLater) && SortedBy(r.value.completed, NoEarlier)
    ensures r.Shown? ==> multiset(r.value.upcoming) == multiset(Filter(s.appointments, Upcoming(r.value.doctor.id, today)))
    ensures r.Shown? ==> multiset(r.value.completed) == multiset(Filter(s.appointments, Done(r.value.doctor.id)))
  {
    if me.role != "Doctor" then Refused(AccessDenied)
    else
      match DoctorProfile(s, me.id)
      case None => Refused(ServerError)
      case Some(d) =>
        var up := Ascending(Filter(s.appointments, Upcoming(d.id, today)));
        var done := Descending(Filter(s.appointments, Done(d.id)));
        SortedMembership(up, s.appointments, Upcoming(d.id, today));
        SortedMembership(done, s.appointments, Done(d.id));
        Shown(Board(d, up, done))
  }

  /** A reordering of the rows satisfying p holds exactly those rows. */
  lemma SortedMembership(sorted: seq<Appointment>, appts: seq<Appointment>, p: Appointment -> bool)
    requires multiset(sorted) == multiset(Filter(appts, p))
    ensures forall a :: a in sorted <==> a in appts && p(a)
  {
    forall a ensures a in sorted <==> a in appts && p(a) {
      FilterMembership(appts, p, a);
      assert a in sorted <==> a in multiset(sorted);
      assert a in Filter(appts, p) <==> a in multiset(Filter(appts, p));
    }
  }

  function Between(patientId: int, doctorId: int): Appointment -> bool
  {
    (a: Appointment) => a.patientId == patientId && a.doctorId == doctorId
  }

  /** A patient's history: only the appointments between that patient and this doctor, latest first. */
  function PatientHistory(s: Store, me: User, patientId: int): (r: Page<seq<Appointment>>)
    ensures me.role != "Doctor" ==> r == Refused(AccessDenied)
    ensures me.role == "Doctor" && FindPatient(s, patientId).None? ==> r == Refused(NotFound)
    ensures me.role == "Doctor" && FindPatient(s, patientId).Some? ==> (r.Refused? <==> DoctorProfile(s, me.id).None?)
    ensures r.Refused? ==> r.outcome == AccessDenied || r.outcome == NotFound || r.outcome == ServerError
    ensures r.Shown? ==> forall a :: a in r.value <==>
      a in s.appointments && a.patientId == patientId && a.doctorId == DoctorProfile(s, me.id).value.id
    ensures r.Shown? ==> SortedBy(r.value, NoEarlier)
    ensures r.Shown? ==> multiset(r.value) == multiset(Filter(s.appointments, Between(patientId, DoctorProfile(s, me.id).value.id)))
  {
    if me.role != "Doctor" then Refused(AccessDenied)
    else if FindPatient(s, patientId).None? then Refused(NotFound)
    else
      match DoctorProfile(s, me.id)
      case None => Refused(ServerError)
      case Some(d) =>
        var h := Descending(Filter(s.appointments, Between(patientId, d.id)));
        SortedMembership(h, s.appointments, Between(patientId, d.id));
        Shown(h)
  }

  /** The treated appointment was found and belongs to the signed-in doctor. */
  datatype Lookup = Owned(index: nat) | Halt(outcome: Outcome)

  /** The role check, get_or_404, then `appointment.doctor_id != current_user.doctor_profile.id` and abort(403). */
  function LookupOwned(s: Store, me: User, apptId: int): (r: Lookup)
    ensures r.Owned? <==> me.role == "Doctor" && FindAppointment(s, apptId).Some? && DoctorProfile(s, me.id).Some?
                          && s.appointments[FindAppointment(s, apptId).value].doctorId == DoctorProfile(s, me.id).value.id
    ensures r.Owned? ==> r.index == FindAppointment(s, apptId).value && r.index < |s.appointments|
    ensures r == Halt(AccessDenied) <==> me.role != "Doctor"
    ensures r.Halt? ==> r.outcome in {AccessDenied, NotFound, ServerError, Forbidden}
  {
    if me.role != "Doctor" then Halt(AccessDenied)
    else
      match FindAppointment(s, apptId)
      case None => Halt(NotFound)
      case Some(i) =>
        match DoctorProfile(s, me.id)
        case None => Halt(ServerError)
        case Some(d) => if s.appointments[i].doctorId != d.id then Halt(Forbidden) else Owned(i)
  }

  /**
   * Recording a treatment: for the doctor's own appointment and a form with a
   * diagnosis, exactly one Treatment is added (its disease and diagnosis both
   * the submitted diagnosis) and the appointment becomes COMPLETED, whatever
   * its status was. Nothing else changes.
   */
  function Treat(s: Store, me: User, apptId: int, validated: bool, diagnosis: string, prescription: string, notes: string): (r: Step)
    ensures Atomic(s, r)
    ensures r.outcome == Saved <==> LookupOwned(s, me, apptId).Owned? && validated && DataRequired(diagnosis)
    ensures r.outcome == Saved ==>
      var i := LookupOwned(s, me, apptId).index;
      && |r.store.treatments| == |s.treatments| + 1
      && r.store == s.(appointments := s.appointments[i := s.appointments[i].(status := Completed)],
                       treatments := s.treatments + [r.store.treatments[|s.treatments|]])
      && var t := r.store.treatments[|s.treatments|];
      && t.id !in TreatmentIds(s.treatments)
      && t == Treatment(t.id, apptId, diagnosis, diagnosis, prescription, notes)
  {
    match LookupOwned(s, me, apptId)
    case Halt(o) => Step(s, o)
    case Owned(i) =>
      if !(validated && DataRequired(diagnosis)) then Step(s, FormShown)
      else
        var id := NextId(TreatmentIds(s.treatments));
        assert id !in TreatmentIds(s.treatments);
        var t := Treatment(id, s.appointments[i].id, diagnosis, diagnosis, prescription, notes);
        Step(s.(appointments := s.appointments[i := s.appointments[i].(status := Completed)],
                treatments := s.treatments + [t]), Saved)
  }

  /**
   * Setting the status from the posted name: for the doctor's own
   * appointment, any of BOOKED, COMPLETED and CANCELLED is written whatever
   * the current status; any other name (or none) changes nothing.
   */
  function UpdateStatus(s: Store, me: User, apptId: int, name: Option<string>): (r: Step)
    ensures Atomic(s, r)
    ensures r.outcome == Saved <==> LookupOwned(s, me, apptId).Owned? && name.Some? && StatusNamed(name.value).Some?
    ensures r.outcome == InvalidStatus <==> LookupOwned(s, me, apptId).Owned? && (name.None? || StatusNamed(name.value).None?)
    ensures r.outcome == Saved ==>
      var i := LookupOwned(s, me, apptId).index;
      && OnlyAppointmentChanged(s, r.store, i, s.appointments[i].(status := StatusNamed(name.value).value))
      && StatusName(r.store.appointments[i].status) == name.value
  {
    match LookupOwned(s, me, apptId)
    case Halt(o) => Step(s, o)
    case Owned(i) =>
      var st := if name.Some? then StatusNamed(name.value) else None;
      match st
      case None => Step(s, InvalidStatus)
      case Some(status) => Step(s.(appointments := s.appointments[i := s.appointments[i].(status := status)]), Saved)
  }

}

=== FILE: forms.dfy ===
/**
 * The constraints forms.py declares: the day codes a doctor can pick, the
 * roles open to self-registration, the matching confirm-password field, the
 * 1..5 rating range, DataRequired, and the time choices an AppointmentForm
 * offers.
 */
module Forms {
  import opened Optional
  import opened Text
  import opened Clock

  /** DoctorSetupForm.available_days choices: (value, label) pairs. */
  const DayChoices: seq<(string, string)> := [
    ("Mon", "Monday"), ("Tue", "Tuesday"), ("Wed", "Wednesday"),
    ("Thu", "Thursday"), ("Fri", "Friday"), ("Sat", "Saturday"), ("Sun", "Sunday")]

  /** The value the form submits for a day. */
  function DayCode(d: Day): string
  {
    match d
    case Monday => "Mon"
    case Tuesday => "Tue"
    case Wednesday => "Wed"
    case Thursday => "Thu"
    case Friday => "Fri"
    case Saturday => "Sat"
    case Sunday => "Sun"
  }

  /** Day index in the choice list, Monday first. */
  function DayIndex(d: Day): (k: nat)
    ensures k < 7
  {
    match d
    case Monday => 0
    case Tuesday => 1
    case Wednesday => 2
    case Thursday => 3
    case Friday => 4
    case Saturday => 5
    case Sunday => 6
  }

  /** The choices are exactly the seven days, each offered once under its code and English name. */
  lemma DayChoicesAreTheWeek(d: Day)
    ensures |DayChoices| == 7
    ensures DayChoices[DayIndex(d)] == (DayCode(d), EnglishName(d))
    ensures forall i :: 0 <= i < |DayChoices| && DayChoices[i].0 == DayCode(d) ==> i == DayIndex(d)
  {
  }

  /** Every submitted day value names a day. */
  lemma DayChoiceNamesADay(i: nat)
    requires i < |DayChoices|
    ensures exists d :: DayCode(d) == DayChoices[i].0
  {
    var days := [Monday, Tuesday, Wednesday, Thursday, Friday, Saturday, Sunday];
    assert DayCode(days[i]) == DayChoices[i].0;
  }

  /** RegisterForm.role choices. */
  const RoleChoices: seq<(string, string)> := [("Patient", "Patient"), ("Doctor", "Doctor")]

  /** SelectField's own check: the submitted value is one of the offered choices. */
  predicate AmongChoices(value: string, choices: seq<(string, string)>)
  {
    exists i :: 0 <= i < |choices| && choices[i].0 == value
  }

  /** DataRequired: the field holds something besides whitespace. */
  predicate DataRequired(s: string)
  {
    Strip(s) != ""
  }

  /** FeedbackForm.rating: NumberRange(min=1, max=5), an empty field failing. */
  predicate RatingValid(rating: Option<int>)
  {
    rating.Some? && 1 <= rating.value <= 5
  }

  datatype RegisterInput = RegisterInput(
    username: string,
    name: string,
    email: string,
    password: string,
    confirmPassword: string,
    role: string)

  /**
   * RegisterForm's validators; whether the address passes the Email()
   * validator is supplied, as that check lives in a library.
   */
  predicate RegisterValid(f: RegisterInput, emailWellFormed: bool)
  {
    && DataRequired(f.username)
    && DataRequired(f.name)
    && DataRequired(f.email) && emailWellFormed
    && DataRequired(f.password)
    && DataRequired(f.confirmPassword) && f.confirmPassword == f.password
    && DataRequired(f.role) && AmongChoices(f.role, RoleChoices)
  }

  /** A form that validates chose Patient or Doctor, never Admin, and confirmed its password. */
  lemma RegisterValidRole(f: RegisterInput, emailWellFormed: bool)
    requires RegisterValid(f, emailWellFormed)
    ensures f.role == "Patient" || f.role == "Doctor"
    ensures f.role != "Admin"
    ensures f.confirmPassword == f.password
  {
  }

  /**
   * AppointmentForm(available_slots): one (slot, slot) choice per slot, in the
   * given order; no choices when the list is missing or empty.
   */
  function TimeChoices(availableSlots: Option<seq<string>>): (r: seq<(string, string)>)
    ensures forall t :: AmongChoices(t, r) <==> availableSlots.Some? && t in availableSlots.value
    ensures forall i :: 0 <= i < |r| ==> r[i].0 == r[i].1
    ensures availableSlots.Some? ==> |r| == |availableSlots.value|
  {
    match availableSlots
    case Some(slots) =>
      var r := seq(|slots|, i requires 0 <= i < |slots| => (slots[i], slots[i]));
      assert forall t :: AmongChoices(t, r) <==> t in slots by {
        forall t | t in slots ensures AmongChoices(t, r) {
          var i :| 0 <= i < |slots| && slots[i] == t;
          assert r[i].0 == t;
        }
      }
      r
    case None => []
  }

  /** The posted doctor_id field: absent, not an integer (coerce=int fails), or an integer id. */
  datatype DoctorField = Absent | NotAnInteger | Posted(id: int)

  /** What an AppointmentForm posts; dateText is what the DateField parses. */
  datatype AppointmentInput = AppointmentInput(doctor: DoctorField, dateText: string, time: string, problem: string)

  /**
   * form.doctor_id.data for a form built without an object: the posted id, or
   * None when the field is absent or does not coerce.
   */
  function DoctorData(f: AppointmentInput): (r: Option<int>)
    ensures r.Some? <==> f.doctor.Posted?
    ensures r.Some? ==> r.value == f.doctor.id
  {
    match f.doctor
    case Posted(id) => Some(id)
    case _ => None
  }

  /**
   * A form built with obj=appt: an absent doctor field keeps the object's
   * doctor id; a posted field, integer or not, is read as posted.
   */
  function WithObjectDoctor(f: AppointmentInput, objDoctor: int): (r: AppointmentInput)
    ensures DoctorData(r) == (if f.doctor.Absent? then Some(objDoctor) else DoctorData(f))
    ensures r.dateText == f.dateText && r.time == f.time && r.problem == f.problem
  {
    if f.doctor.Absent? then f.(doctor := Posted(objDoctor)) else f
  }

  /**
   * The AppointmentForm field checks: the doctor and the time are among the
   * offered choices, the date parses, and the problem is filled in.
   */
  predicate AppointmentValid(f: AppointmentInput, doctorChoices: seq<int>, timeChoices: seq<(string, string)>)
  {
    && DoctorData(f).Some? && DoctorData(f).value in doctorChoices
    && ParseDate(f.dateText).Some?
    && AmongChoices(f.time, timeChoices)
    && DataRequired(f.problem)
  }

  /** A time is selectable exactly when it is one of the slots. */
  lemma TimeChoicesOffersTheSlots(availableSlots: Option<seq<string>>, t: string)
    ensures AmongChoices(t, TimeChoices(availableSlots)) <==> availableSlots.Some? && t in availableSlots.value
  {
  }

  /** An AppointmentForm built without slots offers no time, so no submitted time passes its check. */
  lemma NoSlotsNoValidTime(f: AppointmentInput, doctorChoices: seq<int>)
    ensures !AppointmentValid(f, doctorChoices, TimeChoices(None))
  {
    TimeChoicesOffersTheSlots(None, f.time);
  }

  /** DoctorSetupForm's validators: a specialization, at least one day among the choices, and a slot field. */
  predicate DoctorSetupValid(validated: bool, specialization: string, dayCodes: seq<string>, slotsText: string)
  {
    && validated
    && DataRequired(specialization)
    && |dayCodes| > 0 && (forall i :: 0 <= i < |dayCodes| ==> AmongChoices(dayCodes[i], DayChoices))
    && DataRequired(slotsText)
  }

  /** A day code is three letters: no comma, no surrounding space. */
  lemma DayCodeIsClean(code: string)
    requires AmongChoices(code, DayChoices)
    ensures |code| == 3 && ',' !in code && Stripped(code)
  {
    var k :| 0 <= k < |DayChoices| && DayChoices[k].0 == code;
    DayChoiceNamesADay(k);
    var d :| DayCode(d) == code;
    match d
    case Monday =>
    case Tuesday =>
    case Wednesday =>
    case Thursday =>
    case Friday =>
    case Saturday =>
    case Sunday =>
  }

}

=== FILE: lifecycle.dfy ===
/**
 * How the handlers combine over an appointment's life: what a sequence of
 * requests can do to the BOOKED/COMPLETED/CANCELLED status, and the guards
 * the handlers do not have (no double-booking check, no status check before a
 * treatment, no restriction on status updates).
 */
module Lifecycle {
  import opened Optional
  import opened Clock
  import opened Seqs
  import opened Models
  import opened Database
  import opened Forms
  import PatientRoutes
  import DoctorRoutes
  import AdminRoutes
  import Auth

  /** Whether the appointment row holds a BOOKED slot of the doctor at that date and time. */
  function HoldsSlot(doctorId: int, date: Date, time: Time): Appointment -> bool
  {
    (a: Appointment) => a.doctorId == doctorId && a.date == date && a.time == time && a.status == Booked
  }

  /**
   * A booking adds one BOOKED row at the chosen doctor, date and time however
   * many such rows there already are.
   */
  lemma BookIgnoresExistingBookings(s: Store, me: User, validated: bool, form: AppointmentInput,
                                    timeChoices: seq<(string, string)>)
    requires PatientRoutes.Book(s, me, validated, form, timeChoices).outcome == Saved
    ensures var r := PatientRoutes.Book(s, me, validated, form, timeChoices);
      var a := r.store.appointments[|s.appointments|];
      BookedAt(r.store.appointments, a.doctorId, a.date, a.time) == BookedAt(s.appointments, a.doctorId, a.date, a.time) + 1
  {
    var r := PatientRoutes.Book(s, me, validated, form, timeChoices);
    var a := r.store.appointments[|s.appointments|];
    FilterSnoc(s.appointments, a, HoldsSlot(a.doctorId, a.date, a.time));
  }

  /** The same booking submitted twice saves twice: the slot is then held twice over. */
  lemma DoubleBooking(s: Store, me: User, form: AppointmentInput, timeChoices: seq<(string, string)>)
    requires PatientRoutes.Book(s, me, true, form, timeChoices).outcome == Saved
    ensures var s1 := PatientRoutes.Book(s, me, true, form, timeChoices).store;
      var r2 := PatientRoutes.Book(s1, me, true, form, timeChoices);
      && r2.outcome == Saved
      && var a := r2.store.appointments[|s1.appointments|];
      && BookedAt(r2.store.appointments, a.doctorId, a.date, a.time) >= 2
  {
    var r1 := PatientRoutes.Book(s, me, true, form, timeChoices);
    var s1 := r1.store;
    assert s1.users == s.users && s1.doctors == s.doctors && s1.patients == s.patients;
    assert DoctorChoiceIds(s1) == DoctorChoiceIds(s);
    assert PatientProfile(s1, me.id) == PatientProfile(s, me.id);
    var r2 := PatientRoutes.Book(s1, me, true, form, timeChoices);
    BookIgnoresExistingBookings(s, me, true, form, timeChoices);
    BookIgnoresExistingBookings(s1, me, true, form, timeChoices);
    var a1 := s1.appointments[|s.appointments|];
    var a2 := r2.store.appointments[|s1.appointments|];
    assert a1.doctorId == a2.doctorId && a1.date == a2.date && a1.time == a2.time;
  }

  /** A cancelled appointment can still be treated, and comes out COMPLETED. */
  lemma TreatCompletesCancelled(s: Store, me: User, apptId: int, diagnosis: string, prescription: string, notes: string)
    requires DoctorRoutes.LookupOwned(s, me, apptId).Owned? && DataRequired(diagnosis)
    requires s.appointments[DoctorRoutes.LookupOwned(s, me, apptId).index].status == Cancelled
    ensures var r := DoctorRoutes.Treat(s, me, apptId, true, diagnosis, prescription, notes);
      r.outcome == Saved && r.store.appointments[DoctorRoutes.LookupOwned(s, me, apptId).index].status == Completed
  {
  }

  /** Treating the same appointment twice saves twice and leaves it with two more treatments. */
  lemma TreatTwiceAddsTwoTreatments(s: Store, me: User, apptId: int, diagnosis: string, prescription: string, notes: string)
    requires DoctorRoutes.LookupOwned(s, me, apptId).Owned? && DataRequired(diagnosis)
    ensures var s1 := DoctorRoutes.Treat(s, me, apptId, true, diagnosis, prescription, notes).store;
      var r2 := DoctorRoutes.Treat(s1, me, apptId, true, diagnosis, prescription, notes);
      && r2.outcome == Saved
      && TreatmentsFor(r2.store.treatments, apptId) == TreatmentsFor(s.treatments, apptId) + 2
  {
    var i := DoctorRoutes.LookupOwned(s, me, apptId).index;
    var r1 := DoctorRoutes.Treat(s, me, apptId, true, diagnosis, prescription, notes);
    var s1 := r1.store;
    FindAppointmentAfterUpdate(s, i, s.appointments[i].(status := Completed), apptId);
    assert s1.doctors == s.doctors;
    var r2 := DoctorRoutes.Treat(s1, me, apptId, true, diagnosis, prescription, notes);
    FilterSnoc(s.treatments, s1.treatments[|s.treatments|], ForAppointment(apptId));
    FilterSnoc(s1.treatments, r2.store.treatments[|s1.treatments|], ForAppointment(apptId));
  }

  /**
   * Once treated, an appointment can no longer be deleted, by its patient or
   * by an admin: the delete fails on the treatment's NOT NULL appointment_id.
   */
  lemma {:induction false} TreatedAppointmentCannotBeDeleted(s: Store, doctor: User, patient: User, admin: User, apptId: int,
                                                             diagnosis: string, prescription: string, notes: string)
    requires DoctorRoutes.LookupOwned(s, doctor, apptId).Owned? && DataRequired(diagnosis)
    ensures var s1 := DoctorRoutes.Treat(s, doctor, apptId, true, diagnosis, prescription, notes).store;
      && PatientRoutes.DeleteAppointment(s1, patient, apptId).outcome != Saved
      && AdminRoutes.DeleteAppointment(s1, admin, apptId).outcome != Saved
  {
    var s1 := DoctorRoutes.Treat(s, doctor, apptId, true, diagnosis, prescription, notes).store;
    FilterSnoc(s.treatments, s1.treatments[|s.treatments|], ForAppointment(apptId));
  }

  /**
   * doctor_setup checks no role, so a patient's account can take a doctor
   * profile; from then on the admin's delete of that patient fails.
   */
  lemma PatientTurnedDoctorCannotBeDeleted(s: Store, me: User, admin: User, patientId: int, specialization: string,
                                           dayCodes: seq<string>, slotsText: string, storedSlots: string)
    requires admin.role == "Admin"
    requires FindPatient(s, patientId).Some? && s.patients[FindPatient(s, patientId).value].userId == me.id
    requires FindUser(s, me.id).Some?
    requires DoctorSetupValid(true, specialization, dayCodes, slotsText) && DoctorProfile(s, me.id).None?
    ensures var s1 := Auth.DoctorSetupWith(s, me, true, specialization, dayCodes, slotsText, storedSlots).store;
      AdminRoutes.DeletePatient(s1, admin, patientId).outcome == ServerError
  {
    var s1 := Auth.DoctorSetupWith(s, me, true, specialization, dayCodes, slotsText, storedSlots).store;
    assert s1.doctors[|s.doctors|].userId == me.id;
    assert DoctorProfile(s1, me.id).Some?;
  }

  /** A status update can reopen a cancelled appointment as BOOKED. */
  lemma UpdateStatusReopens(s: Store, me: User, apptId: int)
    requires DoctorRoutes.LookupOwned(s, me, apptId).Owned?
    requires s.appointments[DoctorRoutes.LookupOwned(s, me, apptId).index].status == Cancelled
    ensures var r := DoctorRoutes.UpdateStatus(s, me, apptId, Some("BOOKED"));
      r.outcome == Saved && r.store.appointments[DoctorRoutes.LookupOwned(s, me, apptId).index].status == Booked
  {
  }

  /** Cancelling frees the slot: one fewer BOOKED row holds it. */
  lemma CancelReleasesSlot(s: Store, me: User, today: Date, apptId: int)
    requires PatientRoutes.Cancel(s, me, today, apptId).outcome == Saved
    ensures var i := PatientRoutes.LookupOwned(s, me, apptId).index;
      var a := s.appointments[i];
      BookedAt(PatientRoutes.Cancel(s, me, today, apptId).store.appointments, a.doctorId, a.date, a.time)
        == BookedAt(s.appointments, a.doctorId, a.date, a.time) - 1
  {
    var i := PatientRoutes.LookupOwned(s, me, apptId).index;
    var a := s.appointments[i];
    FilterUpdateCount(s.appointments, i, a.(status := Cancelled), HoldsSlot(a.doctorId, a.date, a.time));
  }

  /**
   * The patient's requests never complete an appointment: after a cancel,
   * every row is as it was or is CANCELLED.
   */
  lemma CancelOnlyCancels(s: Store, me: User, today: Date, apptId: int)
    ensures var r := PatientRoutes.Cancel(s, me, today, apptId);
      forall j :: 0 <= j < |s.appointments| ==>
        r.store.appointments[j] == s.appointments[j] || r.store.appointments[j].status == Cancelled
  {
  }

}

=== FILE: listings.dfy ===
/**
 * The orderings the dashboards ask for: ORDER BY date, time (ascending) and
 * ORDER BY date DESC, time DESC, and Python's max(..., key=(date, time)).
 */
module Listings {
  import opened Optional
  import opened Clock
  import opened Seqs
  import opened Models

  /** (a.date, a.time) <= (b.date, b.time) */
  predicate NoLater(a: Appointment, b: Appointment)
  {
    Before(a.date, b.date) || (a.date == b.date && a.time <= b.time)
  }

  /** (a.date, a.time) >= (b.date, b.time) */
  predicate NoEarlier(a: Appointment, b: Appointment)
  {
    NoLater(b, a)
  }

  /** (a.date, a.time) < (b.date, b.time) */
  predicate Earlier(a: Appointment, b: Appointment)
  {
    Before(a.date, b.date) || (a.date == b.date && a.time < b.time)
  }

  lemma ChronologicalIsTotalPreorder()
    ensures TotalPreorder(NoLater)
    ensures TotalPreorder(NoEarlier)
  {
  }

  /** order_by(Appointment.date, Appointment.time) */
  function Ascending(appts: seq<Appointment>): (r: seq<Appointment>)
    ensures SortedBy(r, NoLater)
    ensures multiset(r) == multiset(appts)
  {
    ChronologicalIsTotalPreorder();
    Sort(appts, NoLater)
  }

  /** order_by(Appointment.date.desc(), Appointment.time.desc()) */
  function Descending(appts: seq<Appointment>): (r: seq<Appointment>)
    ensures SortedBy(r, NoEarlier)
    ensures multiset(r) == multiset(appts)
  {
    ChronologicalIsTotalPreorder();
    Sort(appts, NoEarlier)
  }

  /**
   * max(appts, key=lambda a: (a.date, a.time)), None for an empty list: the
   * first appointment that no other is later than.
   */
  function Latest(appts: seq<Appointment>): (r: Option<nat>)
    ensures r.None? <==> |appts| == 0
    ensures r.Some? ==> r.value < |appts|
    ensures r.Some? ==> forall j :: 0 <= j < |appts| ==> NoLater(appts[j], appts[r.value])
    ensures r.Some? ==> forall j :: 0 <= j < r.value ==> Earlier(appts[j], appts[r.value])
  {
    if |appts| == 0 then None
    else
      match Latest(appts[1..])
      case None => Some(0)
      case Some(k) =>
        if Earlier(appts[0], appts[k + 1]) then Some(k + 1) else Some(0)
  }

  /** Only one position has both properties: max's pick is determined by them. */
  lemma LatestUnique(appts: seq<Appointment>, k: nat)
    requires k < |appts|
    requires forall j :: 0 <= j < |appts| ==> NoLater(appts[j], appts[k])
    requires forall j :: 0 <= j < k ==> Earlier(appts[j], appts[k])
    ensures Latest(appts) == Some(k)
  {
    var m := Latest(appts).value;
    assert NoLater(appts[k], appts[m]) && NoLater(appts[m], appts[k]);
    assert !Earlier(appts[m], appts[k]) && !Earlier(appts[k], appts[m]);
  }

}

=== FILE: models.dfy ===
/**
 * The records of models.py (User, Doctor, Patient, Appointment, Treatment),
 * the AppointmentStatus enum and the DoctorAvailability rows the routes use,
 * and Doctor.get_slots, the comma-separated slot parser.
 */
module Models {
  import opened Optional
  import opened Text
  import opened Clock

  /** AppointmentStatus: its members are named BOOKED, COMPLETED and CANCELLED. */
  datatype Status = Booked | Completed | Cancelled

  /** status.name */
  function StatusName(st: Status): string
  {
    match st
    case Booked => "BOOKED"
    case Completed => "COMPLETED"
    case Cancelled => "CANCELLED"
  }

  /** AppointmentStatus[name] guarded by `name in [s.name for s in AppointmentStatus]`. */
  function StatusNamed(name: string): (r: Option<Status>)
    ensures r.Some? <==> name == "BOOKED" || name == "COMPLETED" || name == "CANCELLED"
    ensures r.Some? ==> StatusName(r.value) == name
  {
    if name == "BOOKED" then Some(Booked)
    else if name == "COMPLETED" then Some(Completed)
    else if name == "CANCELLED" then Some(Cancelled)
    else None
  }

  /** Every status is found again under its own name. */
  lemma StatusNameRoundTrip(st: Status)
    ensures StatusNamed(StatusName(st)) == Some(st)
  {
  }

  /** A login account; role is "Admin", "Doctor" or "Patient"; password holds a hash. */
  datatype User = User(id: int, username: string, name: string, email: string, password: string, role: string)

  /** A doctor profile; availableDays and availableSlots are comma-separated text. */
  datatype Doctor = Doctor(id: int, userId: int, specialization: string, availableDays: string, availableSlots: Option<string>)

  /** A patient profile, linked to its account through userId (the routes read patient.user_id). */
  datatype Patient = Patient(id: int, userId: int, name: string, dob: Date, phoneNumber: string)

  datatype Appointment = Appointment(
    id: int,
    doctorId: int,
    patientId: int,
    date: Date,
    time: Time,
    problem: Option<string>,
    status: Status,
    remarks: Option<string>,
    rating: Option<int>)

  datatype Treatment = Treatment(id: int, appointmentId: int, disease: string, diagnosis: string, prescription: string, notes: string)

  /** A DoctorAvailability row: one weekly slot of one doctor. */
  datatype Availability = Availability(doctorId: int, day: Day, start: Time, end: Time)

  /** Usernames and emails are each unique across users (both columns are declared unique). */
  predicate UniqueUsers(users: seq<User>)
  {
    forall i, j :: 0 <= i < j < |users| ==> users[i].username != users[j].username && users[i].email != users[j].email
  }

  function StripAll(parts: seq<string>): (r: seq<string>)
    ensures |r| == |parts|
    ensures forall i :: 0 <= i < |r| ==> r[i] == Strip(parts[i])
  {
    seq(|parts|, i requires 0 <= i < |parts| => Strip(parts[i]))
  }

  /**
   * Doctor.get_slots: no slots for a missing or empty field, otherwise every
   * comma-separated field with surrounding whitespace removed, empty fields kept.
   */
  function GetSlots(availableSlots: Option<string>): (r: seq<string>)
    ensures availableSlots == None || availableSlots == Some("") ==> r == []
    ensures availableSlots.Some? && availableSlots.value != "" ==> |r| == multiset(availableSlots.value)[','] + 1
    ensures forall i :: 0 <= i < |r| ==> Stripped(r[i]) && ',' !in r[i]
    ensures availableSlots.Some? && availableSlots.value != "" ==>
      |r| == |Split(availableSlots.value, ',')| && forall i :: 0 <= i < |r| ==> r[i] == Strip(Split(availableSlots.value, ',')[i])
  {
    match availableSlots
    case Some(text) =>
      if text == "" then []
      else
        var parts := Split(text, ',');
        var r := StripAll(parts);
        assert forall i :: 0 <= i < |r| ==> ',' !in r[i] by {
          forall i | 0 <= i < |r| ensures ',' !in r[i] {
            assert ',' !in parts[i];
          }
        }
        r
    case None => []
  }

  /**
   * Parsing the comma-join of trimmed, comma-free fields gives the fields
   * back, unless the join is empty (the field list [""]), which reads as no slots.
   */
  lemma GetSlotsOfJoin(slots: seq<string>)
    requires forall i :: 0 <= i < |slots| ==> Stripped(slots[i]) && ',' !in slots[i]
    requires Join(slots, ',') != ""
    ensures GetSlots(Some(Join(slots, ','))) == slots
  {
    var text := Join(slots, ',');
    SplitJoin(slots, ',');
    var r := GetSlots(Some(text));
    assert |r| == |slots|;
    forall i | 0 <= i < |r| ensures r[i] == slots[i] {
      assert r[i] == Strip(slots[i]);
    }
  }

  /** Empty fields survive: "a,,b" reads as ["a", "", "b"]. */
  lemma GetSlotsKeepsEmptyFields()
    ensures GetSlots(Some("a,,b")) == ["a", "", "b"]
  {
    assert Join(["a", "", "b"], ',') == "a,,b" by {
      assert ["a", "", "b"][1..] == ["", "b"];
      assert ["", "b"][1..] == ["b"];
    }
    GetSlotsOfJoin(["a", "", "b"]);
  }

  /** The one-field list [""] joins to "", which get_slots reads as no slots at all. */
  lemma GetSlotsLosesLoneEmptyField()
    ensures Join([""], ',') == "" && GetSlots(Some(Join([""], ','))) == []
  {
  }

}

=== FILE: optional.dfy ===
/** A value that may be absent: a nullable column, a lookup that found nothing, a parse that failed. */
module Optional {

  datatype Option<T> = None | Some(value: T)

}

=== FILE: patient_routes.dfy ===
/**
 * The patient blueprint (routes/patients.py): the dashboard, the actions on
 * one's own appointment (edit, delete, cancel, feedback), booking, and the
 * slot and doctor listings. The signed-in account is `me`; its profile is
 * found through Patient.user_id. None of these handlers checks the role
 * except the dashboard: an account without a patient profile fails with an
 * AttributeError, which the model reports as ServerError.
 */
module PatientRoutes {
  import opened Optional
  import opened Text
  import opened Clock
  import opened Seqs
  import opened Models
  import opened Database
  import opened Forms
  import opened Schedule
  import opened Listings

  /** The appointment belongs to the signed-in account's patient profile. */
  predicate Owns(s: Store, me: User, a: Appointment)
  {
    PatientProfile(s, me.id).Some? && a.patientId == PatientProfile(s, me.id).value.id
  }

  /** The row get_or_404 found and the ownership check passed, or the outcome that ended the request. */
  datatype Lookup = Owned(index: nat) | Halt(outcome: Outcome)

  /** get_or_404, then `appt.patient_id != current_user.patient_profile.id` and abort(403). */
  function LookupOwned(s: Store, me: User, apptId: int): (r: Lookup)
    ensures r.Owned? <==> FindAppointment(s, apptId).Some? && Owns(s, me, s.appointments[FindAppointment(s, apptId).value])
    ensures r.Owned? ==> r.index == FindAppointment(s, apptId).value && r.index < |s.appointments|
    ensures r == Halt(NotFound) <==> FindAppointment(s, apptId).None?
    ensures r == Halt(ServerError) <==> FindAppointment(s, apptId).Some? && PatientProfile(s, me.id).None?
    ensures r.Halt? ==> r.outcome == NotFound || r.outcome == ServerError || r.outcome == Forbidden
  {
    match FindAppointment(s, apptId)
    case None => Halt(NotFound)
    case Some(i) =>
      match PatientProfile(s, me.id)
      case None => Halt(ServerError)
      case Some(p) => if s.appointments[i].patientId != p.id then Halt(Forbidden) else Owned(i)
  }

  function OwnedBy(patientId: int): Appointment -> bool
  {
    (a: Appointment) => a.patientId == patientId
  }

  function OnOrAfter(today: Date): Appointment -> bool
  {
    (a: Appointment) => !Before(a.date, today)
  }

  function BeforeDay(today: Date): Appointment -> bool
  {
    (a: Appointment) => Before(a.date, today)
  }

  datatype Overview = Overview(patient: Patient, age: int, upcoming: seq<Appointment>, past: seq<Appointment>)

  /**
   * The patient dashboard: the age, the appointments from today on in
   * chronological order, and the earlier ones latest first. Between them the
   * two lists hold each of the patient's appointments exactly once.
   */
  function Dashboard(s: Store, me: User, today: Date): (r: Page<Overview>)
    ensures me.role != "Patient" ==> r == Refused(AccessDenied)
    ensures me.role == "Patient" ==> (r.Refused? <==> PatientProfile(s, me.id).None?)
    ensures r.Refused? ==> r.outcome == AccessDenied || r.outcome == ServerError
    ensures r.Shown? ==> Some(r.value.patient) == PatientProfile(s, me.id)
    ensures r.Shown? ==> (!Before(today, Anniversary(r.value.patient.dob, r.value.age))
                          && Before(today, Anniversary(r.value.patient.dob, r.value.age + 1)))
    ensures r.Shown? ==> forall a :: a in r.value.upcoming <==>
      a in s.appointments && a.patientId == r.value.patient.id && !Before(a.date, today)
    ensures r.Shown? ==> forall a :: a in r.value.past <==>
      a in s.appointments && a.patientId == r.value.patient.id && Before(a.date, today)
    ensures r.Shown? ==> SortedBy(r.value.upcoming, NoLater) && SortedBy(r.value.past, NoEarlier)
    ensures r.Shown? ==> multiset(r.value.upcoming) + multiset(r.value.past)
                         == multiset(Filter(s.appointments, OwnedBy(r.value.patient.id)))
  {
    if me.role != "Patient" then Refused(AccessDenied)
    else
      match PatientProfile(s, me.id)
      case None => Refused(ServerError)
      case Some(p) =>
        var mine := Filter(s.appointments, OwnedBy(p.id));
        var future := Filter(mine, OnOrAfter(today));
        var earlier := Filter(mine, BeforeDay(today));
        FilterPartition(mine, OnOrAfter(today), BeforeDay(today));
        assert forall a :: a in future <==> a in s.appointments && a.patientId == p.id && !Before(a.date, today) by {
          forall a ensures a in future <==> a in s.appointments && a.patientId == p.id && !Before(a.date, today) {
            FilterMembership(s.appointments, OwnedBy(p.id), a);
            FilterMembership(mine, OnOrAfter(today), a);
          }
        }
        assert forall a :: a in earlier <==> a in s.appointments && a.patientId == p.id && Before(a.date, today) by {
          forall a ensures a in earlier <==> a in s.appointments && a.patientId == p.id && Before(a.date, today) {
            FilterMembership(s.appointments, OwnedBy(p.id), a);
            FilterMembership(mine, BeforeDay(today), a);
          }
        }
        var up := Ascending(future);
        var down := Descending(earlier);
        assert forall a :: a in up <==> a in future by {
          forall a ensures a in up <==> a in future {
            assert a in up <==> a in multiset(up);
            assert a in future <==> a in multiset(future);
          }
        }
        assert forall a :: a in down <==> a in earlier by {
          forall a ensures a in down <==> a in earlier {
            assert a in down <==> a in multiset(down);
            assert a in earlier <==> a in multiset(earlier);
          }
        }
        Shown(Overview(p, Age(p.dob, today), up, down))
  }

  /**
   * The patient's edit of a booked appointment. It is refused, with nothing
   * changed, unless the appointment is the patient's own, not in the past,
   * and BOOKED. On success only the doctor, date, time and problem change.
   * The form's time is offered from timeChoices; a time that names no clock
   * time cannot be stored in the Time column, and the commit fails.
   */
  function EditAppointment(s: Store, me: User, today: Date, apptId: int, validated: bool, form: AppointmentInput,
                           timeChoices: seq<(string, string)>): (r: Step)
    ensures Atomic(s, r)
    ensures r.outcome == Saved <==>
      && LookupOwned(s, me, apptId).Owned?
      && !Before(s.appointments[LookupOwned(s, me, apptId).index].date, today)
      && s.appointments[LookupOwned(s, me, apptId).index].status == Booked
      && validated && AppointmentValid(form, DoctorChoiceIds(s), timeChoices)
      && ParseTime(form.time).Some?
    ensures r.outcome == Saved ==>
      var i := LookupOwned(s, me, apptId).index;
      var a := s.appointments[i];
      OnlyAppointmentChanged(s, r.store, i, a.(doctorId := DoctorData(form).value, date := ParseDate(form.dateText).value,
                                               time := ParseTime(form.time).value, problem := Some(form.problem)))
    ensures r.outcome == PastDate ==>
      LookupOwned(s, me, apptId).Owned? && Before(s.appointments[LookupOwned(s, me, apptId).index].date, today)
    ensures r.outcome.WrongStatus? ==>
      LookupOwned(s, me, apptId).Owned? && r.outcome.status == s.appointments[LookupOwned(s, me, apptId).index].status
      && r.outcome.status != Booked
  {
    match LookupOwned(s, me, apptId)
    case Halt(o) => Step(s, o)
    case Owned(i) =>
      var a := s.appointments[i];
      if Before(a.date, today) then Step(s, PastDate)
      else if a.status != Booked then Step(s, WrongStatus(a.status))
      else if !(validated && AppointmentValid(form, DoctorChoiceIds(s), timeChoices)) then Step(s, FormShown)
      else
        match ParseTime(form.time)
        case None => Step(s, ServerError)
        case Some(t) =>
          var a' := a.(doctorId := DoctorData(form).value, date := ParseDate(form.dateText).value, time := t,
                       problem := Some(form.problem));
          Step(s.(appointments := s.appointments[i := a']), Saved)
  }

  /** edit_appt as written: its AppointmentForm() is built without slots, so it never saves. */
  function EditAppointmentAsWritten(s: Store, me: User, today: Date, apptId: int, validated: bool, form: AppointmentInput): (r: Step)
    ensures r.outcome != Saved
    ensures r.store == s
  {
    NoSlotsNoValidTime(form, DoctorChoiceIds(s));
    EditAppointment(s, me, today, apptId, validated, form, TimeChoices(None))
  }

  /**
   * Deleting one's own appointment: get_or_404, the ownership check, then
   * the row is gone and nothing else changes. There is no date or status
   * guard, but an appointment with a treatment cannot go: the relationship
   * has no delete cascade, the flush nulls the NOT NULL
   * Treatment.appointment_id, and the commit fails with nothing deleted.
   */
  function DeleteAppointment(s: Store, me: User, apptId: int): (r: Step)
    ensures Atomic(s, r)
    ensures r.outcome == Saved <==> LookupOwned(s, me, apptId).Owned? && TreatmentsFor(s.treatments, apptId) == 0
    ensures r.outcome == ServerError <==>
      LookupOwned(s, me, apptId) == Halt(ServerError) || (LookupOwned(s, me, apptId).Owned? && TreatmentsFor(s.treatments, apptId) > 0)
    ensures r.outcome == Saved ==>
      var i := LookupOwned(s, me, apptId).index;
      r.store == s.(appointments := s.appointments[..i] + s.appointments[i + 1..])
    ensures r.outcome == Saved ==> multiset(r.store.appointments) + multiset{s.appointments[LookupOwned(s, me, apptId).index]}
                                   == multiset(s.appointments)
    ensures r.outcome == Saved ==> forall t :: t in r.store.treatments ==> t.appointmentId != apptId
  {
    match LookupOwned(s, me, apptId)
    case Halt(o) => Step(s, o)
    case Owned(i) =>
      if TreatmentsFor(s.treatments, apptId) > 0 then Step(s, ServerError)
      else
        NoTreatmentsLeft(s.treatments, apptId);
        assert s.appointments == s.appointments[..i] + [s.appointments[i]] + s.appointments[i + 1..];
        Step(s.(appointments := s.appointments[..i] + s.appointments[i + 1..]), Saved)
  }

  /**
   * Cancel: refused with nothing changed when the appointment is not the
   * patient's own, is in the past, or is not BOOKED. A successful cancel
   * turns BOOKED into CANCELLED and changes nothing else, so a COMPLETED or
   * CANCELLED appointment is never altered.
   */
  function Cancel(s: Store, me: User, today: Date, apptId: int): (r: Step)
    ensures Atomic(s, r)
    ensures r.outcome == Saved <==>
      && LookupOwned(s, me, apptId).Owned?
      && !Before(s.appointments[LookupOwned(s, me, apptId).index].date, today)
      && s.appointments[LookupOwned(s, me, apptId).index].status == Booked
    ensures r.outcome == Saved ==>
      var i := LookupOwned(s, me, apptId).index;
      OnlyAppointmentChanged(s, r.store, i, s.appointments[i].(status := Cancelled))
    ensures |r.store.appointments| == |s.appointments|
    ensures forall j :: 0 <= j < |s.appointments| && s.appointments[j].status != Booked ==>
      r.store.appointments[j] == s.appointments[j]
  {
    match LookupOwned(s, me, apptId)
    case Halt(o) => Step(s, o)
    case Owned(i) =>
      var a := s.appointments[i];
      if Before(a.date, today) then Step(s, PastDate)
      else if a.status != Booked then Step(s, WrongStatus(a.status))
      else Step(s.(appointments := s.appointments[i := a.(status := Cancelled)]), Saved)
  }

  /** `appt.rating and appt.remarks`: both present and neither 0 nor empty. */
  predicate Reviewed(a: Appointment)
  {
    a.rating.Some? && a.rating.value != 0 && a.remarks.Some? && a.remarks.value != ""
  }

  /**
   * Feedback: accepted only for the patient's own COMPLETED appointment that
   * is not already reviewed, with a rating in 1..5; it writes exactly the
   * rating and the remarks.
   */
  function Feedback(s: Store, me: User, apptId: int, validated: bool, remarks: string, rating: Option<int>): (r: Step)
    ensures Atomic(s, r)
    ensures r.outcome == Saved <==>
      && LookupOwned(s, me, apptId).Owned?
      && s.appointments[LookupOwned(s, me, apptId).index].status == Completed
      && !Reviewed(s.appointments[LookupOwned(s, me, apptId).index])
      && validated && RatingValid(rating)
    ensures r.outcome == Saved ==>
      var i := LookupOwned(s, me, apptId).index;
      OnlyAppointmentChanged(s, r.store, i, s.appointments[i].(remarks := Some(remarks), rating := rating))
      && 1 <= r.store.appointments[i].rating.value <= 5
  {
    match LookupOwned(s, me, apptId)
    case Halt(o) => Step(s, o)
    case Owned(i) =>
      var a := s.appointments[i];
      if a.status != Completed then Step(s, WrongStatus(a.status))
      else if Reviewed(a) then Step(s, AlreadyReviewed)
      else if !(validated && RatingValid(rating)) then Step(s, FormShown)
      else Step(s.(appointments := s.appointments[i := a.(remarks := Some(remarks), rating := rating)]), Saved)
  }

  /** Feedback that left the remarks empty does not count as given: the same appointment takes feedback again. */
  lemma FeedbackWithoutRemarksRepeats(s: Store, me: User, apptId: int, rating: Option<int>, rating2: Option<int>)
    requires Feedback(s, me, apptId, true, "", rating).outcome == Saved
    requires RatingValid(rating2)
    ensures Feedback(Feedback(s, me, apptId, true, "", rating).store, me, apptId, true, "", rating2).outcome == Saved
  {
    var s1 := Feedback(s, me, apptId, true, "", rating).store;
    var i := LookupOwned(s, me, apptId).index;
    assert s1.patients == s.patients && s1.appointments[i].id == s.appointments[i].id;
    assert FindAppointment(s1, apptId).Some? by {
      assert s1.appointments[i].id == apptId;
    }
    assert forall j :: 0 <= j < |s.appointments| ==> s1.appointments[j].id == s.appointments[j].id;
    assert FindAppointment(s1, apptId).value == i;
  }

  /**
   * Booking: with a valid form the patient's new appointment is appended as
   * BOOKED at the chosen doctor, date and time, and nothing else changes. No
   * check is made for an appointment already holding that slot, nor for a
   * date in the past.
   */
  function Book(s: Store, me: User, validated: bool, form: AppointmentInput, timeChoices: seq<(string, string)>): (r: Step)
    ensures Atomic(s, r)
    ensures r.outcome == Saved || r.outcome == FormShown || r.outcome == ServerError
    ensures r.outcome == FormShown <==> !(validated && AppointmentValid(form, DoctorChoiceIds(s), timeChoices))
    ensures r.outcome == Saved <==>
      validated && AppointmentValid(form, DoctorChoiceIds(s), timeChoices)
      && ParseTime(form.time).Some? && PatientProfile(s, me.id).Some?
    ensures r.outcome == Saved ==> |r.store.appointments| == |s.appointments| + 1
    ensures r.outcome == Saved ==> r.store == s.(appointments := s.appointments + [r.store.appointments[|s.appointments|]])
    ensures r.outcome == Saved ==> BookedAs(s, me, form, r.store.appointments[|s.appointments|])
  {
    if !(validated && AppointmentValid(form, DoctorChoiceIds(s), timeChoices)) then Step(s, FormShown)
    else
      match ParseTime(form.time)
      case None => Step(s, ServerError)
      case Some(t) =>
        match PatientProfile(s, me.id)
        case None => Step(s, ServerError)
        case Some(p) =>
          var id := NextId(AppointmentIds(s.appointments));
          var a := Appointment(id, DoctorData(form).value, p.id, ParseDate(form.dateText).value, t, Some(form.problem), Booked, None, None);
          assert id !in AppointmentIds(s.appointments);
          Step(s.(appointments := s.appointments + [a]), Saved)
  }

  /** The appointment a booking adds: a fresh id, the patient's own, BOOKED, with the form's doctor, date, time and problem. */
  predicate BookedAs(s: Store, me: User, form: AppointmentInput, a: Appointment)
  {
    && a.id !in AppointmentIds(s.appointments)
    && PatientProfile(s, me.id).Some? && a.patientId == PatientProfile(s, me.id).value.id
    && Some(a.doctorId) == DoctorData(form)
    && Some(a.date) == ParseDate(form.dateText)
    && Some(a.time) == ParseTime(form.time)
    && a.problem == Some(form.problem)
    && a.status == Booked && a.remarks.None? && a.rating.None?
  }

  /** book_appt as written: its AppointmentForm() is built without slots, so it never saves. */
  function BookAsWritten(s: Store, me: User, validated: bool, form: AppointmentInput): (r: Step)
    ensures r.outcome != Saved
    ensures r.store == s
  {
    NoSlotsNoValidTime(form, DoctorChoiceIds(s));
    Book(s, me, validated, form, TimeChoices(None))
  }

  /** The slots get_slots offers for the form's doctor and date, as the booking form should list them. */
  function OfferedSlots(s: Store, table: DayTable, weekday: Date -> Day, form: AppointmentInput): seq<(string, string)>
  {
    match DoctorData(form)
    case None => []
    case Some(d) => TimeChoices(Some(SlotsForDate(s, table, weekday, d, form.dateText)))
  }

  /**
   * Booking with the form offering the doctor's slots for the chosen date: a
   * saved appointment starts at one of that doctor's weekly slots on the
   * date's weekday.
   */
  function BookFromSlots(s: Store, me: User, validated: bool, form: AppointmentInput, table: DayTable, weekday: Date -> Day): (r: Step)
    ensures Atomic(s, r)
    ensures r.outcome == Saved ==>
      |s.appointments| < |r.store.appointments| &&
      var a := r.store.appointments[|s.appointments|];
      exists x :: HeldOn(s.availability, table, weekday, a.doctorId, a.date, x) && x.start == a.time
  {
    var r := Book(s, me, validated, form, OfferedSlots(s, table, weekday, form));
    if r.outcome == Saved then
      ChosenTimeIsASlot(s, table, weekday, form);
      r
    else r
  }

  /** edit_appt with the form offering the doctor's slots for the chosen date. */
  function EditAppointmentFromSlots(s: Store, me: User, today: Date, apptId: int, validated: bool, form: AppointmentInput,
                                    table: DayTable, weekday: Date -> Day): (r: Step)
    ensures Atomic(s, r)
    ensures r.outcome == Saved ==>
      LookupOwned(s, me, apptId).Owned? && LookupOwned(s, me, apptId).index < |r.store.appointments| &&
      var a := r.store.appointments[LookupOwned(s, me, apptId).index];
      exists x :: HeldOn(s.availability, table, weekday, a.doctorId, a.date, x) && x.start == a.time
  {
    var r := EditAppointment(s, me, today, apptId, validated, form, OfferedSlots(s, table, weekday, form));
    if r.outcome == Saved then
      ChosenTimeIsASlot(s, table, weekday, form);
      r
    else r
  }

  /** A time chosen among the offered slots parses to the start of one of the doctor's rows on that weekday. */
  lemma ChosenTimeIsASlot(s: Store, table: DayTable, weekday: Date -> Day, form: AppointmentInput)
    requires AppointmentValid(form, DoctorChoiceIds(s), OfferedSlots(s, table, weekday, form))
    ensures ParseTime(form.time).Some?
    ensures exists x :: HeldOn(s.availability, table, weekday, DoctorData(form).value, ParseDate(form.dateText).value, x)
                        && x.start == ParseTime(form.time).value
  {
    var slots := SlotsForDate(s, table, weekday, DoctorData(form).value, form.dateText);
    TimeChoicesOffersTheSlots(Some(slots), form.time);
    var k :| 0 <= k < |slots| && slots[k] == form.time;
    var x :| HeldOn(s.availability, table, weekday, DoctorData(form).value, ParseDate(form.dateText).value, x) && slots[k] == Label(x.start);
    ParseLabel(x.start);
  }

  /**
   * get_slots: the HH:MM start times of the doctor's rows on the date's
   * weekday, in table order; an empty list when the date does not parse or
   * the weekday's name is not a DayOfWeek member.
   */
  function SlotsForDate(s: Store, table: DayTable, weekday: Date -> Day, doctorId: int, dateText: string): (r: seq<string>)
    ensures ParseDate(dateText).None? ==> r == []
    ensures ParseDate(dateText).Some? && WeekdayKey(weekday(ParseDate(dateText).value)) !in table ==> r == []
    ensures ParseDate(dateText).Some? ==> forall i :: 0 <= i < |r| ==>
      LabelOfHeld(s.availability, table, weekday, doctorId, ParseDate(dateText).value, r[i])
    ensures ParseDate(dateText).Some? ==> forall x :: HeldOn(s.availability, table, weekday, doctorId, ParseDate(dateText).value, x) ==>
      Label(x.start) in r
  {
    match ParseDate(dateText)
    case None => []
    case Some(date) =>
      match SlotLabelsOn(s.availability, table, weekday, doctorId, date)
      case None => []
      case Some(labels) => labels
  }

  datatype Summary = Summary(days: seq<string>, slots: seq<string>)

  /**
   * One doctor's entry in list_doctors: the DayOfWeek values and the HH:MM
   * start times of its rows, each once, in ascending order.
   */
  function DoctorSummary(rows: seq<Availability>, doctorId: int, dayValue: Day -> string): (r: Summary)
    ensures StrictlyAscending(r.days) && StrictlyAscending(r.slots)
    ensures forall v :: v in r.days <==> exists x :: x in rows && x.doctorId == doctorId && dayValue(x.day) == v
    ensures forall l :: l in r.slots <==> exists x :: x in rows && x.doctorId == doctorId && Label(x.start) == l
  {
    var mine := Mine(rows, doctorId);
    MineMembership(rows, doctorId);
    forall l ensures l in StartLabels(mine) <==> exists x :: x in mine && Label(x.start) == l {
      StartLabelsMembership(mine, l);
    }
    Summary(SortedSet(DayValues(mine, dayValue)), SortedSet(StartLabels(mine)))
  }

  lemma MineMembership(rows: seq<Availability>, doctorId: int)
    ensures forall x :: x in Mine(rows, doctorId) <==> x in rows && x.doctorId == doctorId
  {
    forall x ensures x in Mine(rows, doctorId) <==> x in rows && x.doctorId == doctorId {
      FilterMembership(rows, (x: Availability) => x.doctorId == doctorId, x);
    }
  }

  /** [avail.day.value for avail in rows] */
  function DayValues(rows: seq<Availability>, dayValue: Day -> string): (r: seq<string>)
    ensures forall v :: v in r <==> exists x :: x in rows && dayValue(x.day) == v
  {
    var r := seq(|rows|, i requires 0 <= i < |rows| => dayValue(rows[i].day));
    assert forall v :: (exists x :: x in rows && dayValue(x.day) == v) ==> v in r by {
      forall v | exists x :: x in rows && dayValue(x.day) == v ensures v in r {
        var x :| x in rows && dayValue(x.day) == v;
        var k :| 0 <= k < |rows| && rows[k] == x;
        assert r[k] == v;
      }
    }
    r
  }

  /**
   * list_doctors: an entry for exactly the doctors whose account exists;
   * each lists that doctor's day values and start labels, each once, in
   * ascending order.
   */
  function ListDoctors(s: Store, dayValue: Day -> string): (r: map<int, Summary>)
    ensures forall id :: id in r <==> id in DoctorChoiceIds(s)
    ensures forall id :: id in r ==> StrictlyAscending(r[id].days) && StrictlyAscending(r[id].slots)
    ensures forall id, v :: id in r ==>
      (v in r[id].days <==> exists x :: x in s.availability && x.doctorId == id && dayValue(x.day) == v)
    ensures forall id, l :: id in r ==>
      (l in r[id].slots <==> exists x :: x in s.availability && x.doctorId == id && Label(x.start) == l)
  {
    map id | id in DoctorChoiceIds(s) :: DoctorSummary(s.availability, id, dayValue)
  }

}

=== FILE: schedule.dfy ===
/**
 * The weekly availability store: how the admin's schedule edit replaces a
 * doctor's DoctorAvailability rows with the product of chosen days and start
 * times, and how a date is turned back into that doctor's slot labels.
 *
 * The DayOfWeek enum is not defined in the code shown; it is modelled by the
 * table of member names it answers to. The reader looks members up under
 * date.strftime('%A').upper() ("MONDAY"), the writer under the form's day
 * code upper-cased ("MON").
 */
module Schedule {
  import opened Optional
  import opened Text
  import opened Clock
  import opened Seqs
  import opened Models
  import opened Forms

  /** DayOfWeek's members by name. */
  type DayTable = map<string, Day>

  /** DayOfWeek[key]; None where Python raises KeyError. */
  function LookupDay(table: DayTable, key: string): (r: Option<Day>)
    ensures r.Some? <==> key in table
    ensures r.Some? ==> r.value == table[key]
  {
    if key in table then Some(table[key]) else None
  }

  /** date.strftime('%A').upper(): the key the slot lookups use. */
  function WeekdayKey(d: Day): string
  {
    Upper(EnglishName(d))
  }

  /** day_str.upper() for the form's code: the key the schedule writer uses. */
  function CodeKey(d: Day): string
  {
    Upper(DayCode(d))
  }

  /** The two conventions never meet: "MON" is not "MONDAY", for every day. */
  lemma KeyConventionsDiffer(d: Day)
    ensures CodeKey(d) != WeekdayKey(d)
  {
    assert |CodeKey(d)| == 3 && |WeekdayKey(d)| >= 6;
  }

  /** The enum member a date resolves to, None where the lookup raises KeyError. */
  function DayOfDate(table: DayTable, weekday: Date -> Day, date: Date): Option<Day>
  {
    LookupDay(table, WeekdayKey(weekday(date)))
  }

  /** DoctorAvailability.query.filter_by(doctor_id=..., day=...), in table order. */
  function RowsOn(rows: seq<Availability>, doctorId: int, day: Day): (r: seq<Availability>)
    ensures forall x :: x in r <==> x in rows && x.doctorId == doctorId && x.day == day
  {
    var p := (x: Availability) => x.doctorId == doctorId && x.day == day;
    assert forall x :: x in Filter(rows, p) <==> x in rows && p(x) by {
      forall x { FilterMembership(rows, p, x); }
    }
    Filter(rows, p)
  }

  /** start_time.strftime('%H:%M') of each row, in order. */
  function StartLabels(rows: seq<Availability>): (r: seq<string>)
    ensures |r| == |rows|
    ensures forall i :: 0 <= i < |rows| ==> r[i] == Label(rows[i].start)
  {
    seq(|rows|, i requires 0 <= i < |rows| => Label(rows[i].start))
  }

  /** A label is among the start labels exactly when some row starts at its time. */
  lemma StartLabelsMembership(rows: seq<Availability>, l: string)
    ensures l in StartLabels(rows) <==> exists x :: x in rows && Label(x.start) == l
  {
    var labels := StartLabels(rows);
    if l in labels {
      var k :| 0 <= k < |labels| && labels[k] == l;
      assert rows[k] in rows;
    }
    if exists x :: x in rows && Label(x.start) == l {
      var x :| x in rows && Label(x.start) == l;
      var k :| 0 <= k < |rows| && rows[k] == x;
      assert labels[k] == l;
    }
  }

  /** order_by(DoctorAvailability.start_time) */
  function ByStart(rows: seq<Availability>): (r: seq<Availability>)
    ensures multiset(r) == multiset(rows)
    ensures forall i, j :: 0 <= i < j < |r| ==> r[i].start <= r[j].start
  {
    var le := (a: Availability, b: Availability) => a.start <= b.start;
    Sort(rows, le)
  }

  /** DayOfWeek[code.upper()] for each submitted code; None if any raises KeyError. */
  function ResolveDays(table: DayTable, codes: seq<string>): (r: Option<seq<Day>>)
    ensures r.Some? <==> forall i :: 0 <= i < |codes| ==> Upper(codes[i]) in table
    ensures r.Some? ==> |r.value| == |codes|
    ensures r.Some? ==> forall i :: 0 <= i < |codes| ==> r.value[i] == table[Upper(codes[i])]
  {
    if |codes| == 0 then Some([])
    else
      var head := LookupDay(table, Upper(codes[0]));
      var tail := ResolveDays(table, codes[1..]);
      if head.None? then None
      else if tail.None? then
        var k :| 0 <= k < |codes[1..]| && Upper(codes[1..][k]) !in table;
        assert Upper(codes[k + 1]) !in table;
        None
      else
        Some([head.value] + tail.value)
  }

  /** datetime.strptime(label, '%H:%M').time() for each label; None if any raises ValueError. */
  function ParseTimes(labels: seq<string>): (r: Option<seq<Time>>)
    ensures r.Some? <==> forall i :: 0 <= i < |labels| ==> ParseTime(labels[i]).Some?
    ensures r.Some? ==> |r.value| == |labels|
    ensures r.Some? ==> forall i :: 0 <= i < |labels| ==> Some(r.value[i]) == ParseTime(labels[i])
  {
    if |labels| == 0 then Some([])
    else
      var head := ParseTime(labels[0]);
      var tail := ParseTimes(labels[1..]);
      if head.None? then None
      else if tail.None? then
        var k :| 0 <= k < |labels[1..]| && ParseTime(labels[1..][k]).None?;
        assert ParseTime(labels[k + 1]).None?;
        None
      else
        Some([head.value] + tail.value)
  }

  /** The row the editor creates for one day and start time: 30 minutes long, wrapping past midnight. */
  function SlotRow(doctorId: int, day: Day, start: Time): Availability
  {
    Availability(doctorId, day, start, AddMinutes(start, SlotMinutes))
  }

  function RowsForDay(doctorId: int, day: Day, starts: seq<Time>): (r: seq<Availability>)
    ensures |r| == |starts|
    ensures forall x :: x in r <==> exists k :: 0 <= k < |starts| && x == SlotRow(doctorId, day, starts[k])
  {
    var r := seq(|starts|, k requires 0 <= k < |starts| => SlotRow(doctorId, day, starts[k]));
    assert forall x :: x in r ==> exists k :: 0 <= k < |starts| && x == SlotRow(doctorId, day, starts[k]) by {
      forall x | x in r ensures exists k :: 0 <= k < |starts| && x == SlotRow(doctorId, day, starts[k]) {
        var k :| 0 <= k < |r| && r[k] == x;
        assert x == SlotRow(doctorId, day, starts[k]);
      }
    }
    assert forall k :: 0 <= k < |starts| ==> SlotRow(doctorId, day, starts[k]) == r[k];
    r
  }

  /** A row of the product of the chosen days and start times. */
  predicate InProduct(x: Availability, doctorId: int, days: seq<Day>, starts: seq<Time>)
  {
    && x.doctorId == doctorId
    && x.day in days
    && x.start in starts
    && x.end == AddMinutes(x.start, SlotMinutes)
  }

  /** The rows the nested loops add: for each day, for each start time, in that order. */
  function Product(doctorId: int, days: seq<Day>, starts: seq<Time>): (r: seq<Availability>)
    ensures |r| == |days| * |starts|
    ensures forall x :: x in r <==> InProduct(x, doctorId, days, starts)
  {
    if |days| == 0 then []
    else
      var head := RowsForDay(doctorId, days[0], starts);
      var tail := Product(doctorId, days[1..], starts);
      assert forall x :: x in head <==> InProduct(x, doctorId, [days[0]], starts) by {
        forall x ensures x in head <==> InProduct(x, doctorId, [days[0]], starts) {
          if InProduct(x, doctorId, [days[0]], starts) {
            var k :| 0 <= k < |starts| && starts[k] == x.start;
            assert x == SlotRow(doctorId, days[0], starts[k]);
          }
        }
      }
      assert days == [days[0]] + days[1..];
      assert |head + tail| == |starts| + (|days| - 1) * |starts|;
      head + tail
  }

  /** True when the edit's loops raise: a day code the enum lacks, or, once a day is chosen, a start time strptime rejects. */
  predicate ScheduleRaises(table: DayTable, dayCodes: seq<string>, slotLabels: seq<string>)
  {
    || (exists i :: 0 <= i < |dayCodes| && Upper(dayCodes[i]) !in table)
    || (|dayCodes| > 0 && exists j :: 0 <= j < |slotLabels| && ParseTime(slotLabels[j]).None?)
  }

  /** A row the edit asks for: one of the chosen days and one of the chosen start times of this doctor. */
  predicate Requested(x: Availability, doctorId: int, table: DayTable, dayCodes: seq<string>, slotLabels: seq<string>)
  {
    && x.doctorId == doctorId
    && (exists i :: 0 <= i < |dayCodes| && LookupDay(table, Upper(dayCodes[i])) == Some(x.day))
    && (exists j :: 0 <= j < |slotLabels| && ParseTime(slotLabels[j]) == Some(x.start))
    && x.end == AddMinutes(x.start, SlotMinutes)
  }

  function Others(rows: seq<Availability>, doctorId: int): seq<Availability>
  {
    Filter(rows, (x: Availability) => x.doctorId != doctorId)
  }

  function Mine(rows: seq<Availability>, doctorId: int): seq<Availability>
  {
    Filter(rows, (x: Availability) => x.doctorId == doctorId)
  }

  /**
   * The availability table after edit_doctor's delete-then-insert: None when
   * the loops raise (the session is rolled back). Otherwise the doctor's rows
   * are exactly the requested day-time product, one row per pair, and every
   * other doctor's rows are untouched.
   */
  function ReplaceSchedule(rows: seq<Availability>, doctorId: int, table: DayTable, dayCodes: seq<string>, slotLabels: seq<string>)
    : (r: Option<seq<Availability>>)
    ensures r.None? <==> ScheduleRaises(table, dayCodes, slotLabels)
    ensures r.Some? ==> Others(r.value, doctorId) == Others(rows, doctorId)
    ensures r.Some? ==> |Mine(r.value, doctorId)| == |dayCodes| * |slotLabels| || |dayCodes| == 0
    ensures r.Some? ==> forall x: Availability :: x.doctorId == doctorId ==> (x in r.value <==> Requested(x, doctorId, table, dayCodes, slotLabels))
  {
    var others := Others(rows, doctorId);
    assert forall i :: 0 <= i < |others| ==> others[i].doctorId != doctorId;
    match ResolveDays(table, dayCodes)
    case None => None
    case Some(days) =>
      if |days| == 0 then
        FilterAll(others, (x: Availability) => x.doctorId != doctorId);
        assert forall x: Availability :: x.doctorId == doctorId ==> x !in others;
        Some(others)
      else
        match ParseTimes(slotLabels)
        case None => None
        case Some(starts) =>
          var product := Product(doctorId, days, starts);
          var r := others + product;
          assert forall i :: 0 <= i < |product| ==> product[i].doctorId == doctorId by {
            forall i | 0 <= i < |product| ensures product[i].doctorId == doctorId {
              assert product[i] in product;
            }
          }
          FrameOfReplace(others, product, doctorId);
          assert forall x: Availability :: x.doctorId == doctorId ==> (x in r <==> Requested(x, doctorId, table, dayCodes, slotLabels)) by {
            forall x: Availability | x.doctorId == doctorId
              ensures x in r <==> Requested(x, doctorId, table, dayCodes, slotLabels)
            {
              assert x !in others;
              RequestedIsProduct(x, doctorId, table, dayCodes, slotLabels, days, starts);
            }
          }
          Some(r)
  }

  lemma FrameOfReplace(others: seq<Availability>, product: seq<Availability>, doctorId: int)
    requires forall i :: 0 <= i < |others| ==> others[i].doctorId != doctorId
    requires forall i :: 0 <= i < |product| ==> product[i].doctorId == doctorId
    ensures Others(others + product, doctorId) == others
    ensures Mine(others + product, doctorId) == product
  {
    var o := (x: Availability) => x.doctorId != doctorId;
    var m := (x: Availability) => x.doctorId == doctorId;
    FilterAppend(others, product, o);
    FilterAppend(others, product, m);
    FilterAll(others, o);
    FilterNone(product, o);
    FilterNone(others, m);
    FilterAll(product, m);
  }

  lemma RequestedIsProduct(x: Availability, doctorId: int, table: DayTable, dayCodes: seq<string>, slotLabels: seq<string>,
                           days: seq<Day>, starts: seq<Time>)
    requires ResolveDays(table, dayCodes) == Some(days)
    requires ParseTimes(slotLabels) == Some(starts)
    ensures Requested(x, doctorId, table, dayCodes, slotLabels) <==> InProduct(x, doctorId, days, starts)
  {
    if x.day in days {
      var i :| 0 <= i < |days| && days[i] == x.day;
      assert LookupDay(table, Upper(dayCodes[i])) == Some(x.day);
    }
    if x.start in starts {
      var j :| 0 <= j < |starts| && starts[j] == x.start;
      assert ParseTime(slotLabels[j]) == Some(x.start);
    }
    if exists i :: 0 <= i < |dayCodes| && LookupDay(table, Upper(dayCodes[i])) == Some(x.day) {
      var i :| 0 <= i < |dayCodes| && LookupDay(table, Upper(dayCodes[i])) == Some(x.day);
      assert days[i] == x.day;
    }
    if exists j :: 0 <= j < |slotLabels| && ParseTime(slotLabels[j]) == Some(x.start) {
      var j :| 0 <= j < |slotLabels| && ParseTime(slotLabels[j]) == Some(x.start);
      assert starts[j] == x.start;
    }
  }

  /**
   * The doctor's slot labels on a date, in table order: None where the
   * weekday's name is not a DayOfWeek member (KeyError).
   */
  function SlotLabelsOn(rows: seq<Availability>, table: DayTable, weekday: Date -> Day, doctorId: int, date: Date)
    : (r: Option<seq<string>>)
    ensures r.None? <==> WeekdayKey(weekday(date)) !in table
    ensures r.Some? ==> forall t: Time :: Label(t) in r.value <==> exists x :: HeldOn(rows, table, weekday, doctorId, date, x) && x.start == t
    ensures r.Some? ==> forall i :: 0 <= i < |r.value| ==> LabelOfHeld(rows, table, weekday, doctorId, date, r.value[i])
  {
    match DayOfDate(table, weekday, date)
    case None => None
    case Some(day) =>
      SlotLabelsOfDay(rows, table, weekday, doctorId, date, day);
      Some(StartLabels(RowsOn(rows, doctorId, day)))
  }

  /** The start labels of the doctor's rows on the date's weekday are the labels of the rows HeldOn that date. */
  lemma SlotLabelsOfDay(rows: seq<Availability>, table: DayTable, weekday: Date -> Day, doctorId: int, date: Date, day: Day)
    requires DayOfDate(table, weekday, date) == Some(day)
    ensures forall t: Time :: Label(t) in StartLabels(RowsOn(rows, doctorId, day)) <==>
      exists x :: HeldOn(rows, table, weekday, doctorId, date, x) && x.start == t
    ensures forall i :: 0 <= i < |StartLabels(RowsOn(rows, doctorId, day))| ==>
      LabelOfHeld(rows, table, weekday, doctorId, date, StartLabels(RowsOn(rows, doctorId, day))[i])
  {
    var mine := RowsOn(rows, doctorId, day);
    var labels := StartLabels(mine);
    forall t: Time ensures Label(t) in labels <==> exists x :: HeldOn(rows, table, weekday, doctorId, date, x) && x.start == t {
      StartLabelsMembership(mine, Label(t));
      if Label(t) in labels {
        var x :| x in mine && Label(x.start) == Label(t);
        LabelInjective(x.start, t);
        assert HeldOn(rows, table, weekday, doctorId, date, x);
      }
      if exists x :: HeldOn(rows, table, weekday, doctorId, date, x) && x.start == t {
        var x :| HeldOn(rows, table, weekday, doctorId, date, x) && x.start == t;
        assert x in mine;
      }
    }
    forall i | 0 <= i < |labels| ensures LabelOfHeld(rows, table, weekday, doctorId, date, labels[i]) {
      var x := mine[i];
      assert x in mine;
      assert HeldOn(rows, table, weekday, doctorId, date, x) && labels[i] == Label(x.start);
    }
  }

  /** l is the start label of one of the doctor's weekly slots on the weekday of date. */
  ghost predicate LabelOfHeld(rows: seq<Availability>, table: DayTable, weekday: Date -> Day, doctorId: int, date: Date, l: string)
  {
    exists x :: HeldOn(rows, table, weekday, doctorId, date, x) && l == Label(x.start)
  }

  /** Row x is one of the doctor's weekly slots on the weekday of date (whose name the enum knows). */
  predicate HeldOn(rows: seq<Availability>, table: DayTable, weekday: Date -> Day, doctorId: int, date: Date, x: Availability)
  {
    && WeekdayKey(weekday(date)) in table
    && x in rows
    && x.doctorId == doctorId
    && x.day == table[WeekdayKey(weekday(date))]
  }

  /** Distinct times have distinct labels. */
  lemma LabelInjective(a: Time, b: Time)
    requires Label(a) == Label(b)
    ensures a == b
  {
    ParseLabel(a);
    ParseLabel(b);
  }

  /** Labels of later times never sort first: the order_by(start_time) list is ordered as text too. */
  lemma LabelMonotone(a: Time, b: Time)
    requires a <= b
    ensures StringLe(Label(a), Label(b))
  {
    LabelOrder(b, a);
  }

  /** A label has no surrounding whitespace and no comma, so it survives a comma-join and get_slots. */
  lemma LabelIsClean(t: Time)
    ensures Stripped(Label(t)) && ',' !in Label(t)
  {
    var l := Label(t);
    assert l == Pad2(t / 60) + ":" + Pad2(t % 60);
    assert forall i :: 0 <= i < |l| ==> IsDigit(l[i]) || l[i] == ':';
  }

  /**
   * With an enum that answers only to the form codes ("MON"), the date lookup
   * never finds a day, whatever the date.
   */
  lemma CodeOnlyTableFindsNoDate(table: DayTable, weekday: Date -> Day, date: Date)
    requires forall k :: k in table ==> exists d :: k == CodeKey(d)
    ensures DayOfDate(table, weekday, date).None?
  {
    assert forall k :: k in table ==> |k| == 3 by {
      forall k | k in table ensures |k| == 3 {
        var e :| k == CodeKey(e);
      }
    }
    assert |WeekdayKey(weekday(date))| >= 6;
  }

  /**
   * With an enum that answers only to the weekday names ("MONDAY"), any edit
   * that selects a day from the form's choices raises and is rolled back.
   */
  lemma NameOnlyTableRejectsFormCodes(table: DayTable, dayCodes: seq<string>, slotLabels: seq<string>, i: nat)
    requires forall k :: k in table ==> exists d :: k == WeekdayKey(d)
    requires i < |dayCodes| && exists d :: dayCodes[i] == DayCode(d)
    ensures ScheduleRaises(table, dayCodes, slotLabels)
  {
    assert forall k :: k in table ==> |k| >= 6 by {
      forall k | k in table ensures |k| >= 6 {
        var e :| k == WeekdayKey(e);
      }
    }
    var d :| dayCodes[i] == DayCode(d);
    assert |Upper(dayCodes[i])| == 3;
  }

  /** The HH:MM label of each time. */
  function TimeLabels(times: seq<Time>): (r: seq<string>)
    ensures |r| == |times|
    ensures forall i :: 0 <= i < |r| ==> r[i] == Label(times[i])
  {
    seq(|times|, i requires 0 <= i < |times| => Label(times[i]))
  }

  /** A comma-join of time labels splits back into the same labels. */
  lemma SlotsOfTimeLabels(times: seq<Time>)
    requires |times| > 0
    ensures GetSlots(Some(Join(TimeLabels(times), ','))) == TimeLabels(times)
  {
    var labels := TimeLabels(times);
    forall i | 0 <= i < |labels| ensures Stripped(labels[i]) && ',' !in labels[i] {
      LabelIsClean(times[i]);
    }
    JoinOfLabelsIsNotEmpty(labels);
    GetSlotsOfJoin(labels);
  }

  lemma JoinOfLabelsIsNotEmpty(labels: seq<string>)
    requires |labels| > 0 && |labels[0]| > 0
    ensures Join(labels, ',') != ""
  {
    if |labels| > 1 {
      assert Join(labels, ',') == labels[0] + [','] + Join(labels[1..], ',');
    }
  }

}

=== FILE: seqs.dfy ===
/**
 * Query shapes over tables held as sequences: the first row matching a
 * condition (query.get / .first()), the rows matching it (filter_by), their
 * number (sum(1 for ...)), rows in a requested order (order_by), and Python's
 * sorted(set(values)) on strings.
 */
module Seqs {
  import opened Optional
  import opened Text

  /** Index of the first element satisfying p. */
  function Find<T>(xs: seq<T>, p: T -> bool): (r: Option<nat>)
    ensures r.Some? ==> r.value < |xs| && p(xs[r.value])
    ensures r.Some? ==> forall j :: 0 <= j < r.value ==> !p(xs[j])
    ensures r.None? ==> forall j :: 0 <= j < |xs| ==> !p(xs[j])
  {
    if |xs| == 0 then None
    else if p(xs[0]) then Some(0)
    else
      match Find(xs[1..], p)
      case None => None
      case Some(k) => Some(k + 1)
  }

  /** The elements satisfying p, in their original order. */
  function Filter<T>(xs: seq<T>, p: T -> bool): (r: seq<T>)
    ensures |r| <= |xs|
    ensures forall i :: 0 <= i < |r| ==> p(r[i])
  {
    if |xs| == 0 then []
    else if p(xs[0]) then [xs[0]] + Filter(xs[1..], p) else Filter(xs[1..], p)
  }

  /** Filter keeps every element satisfying p as often as it occurs, and nothing else. */
  lemma {:induction false} FilterMultiset<T(!new)>(xs: seq<T>, p: T -> bool)
    ensures forall x :: multiset(Filter(xs, p))[x] == if p(x) then multiset(xs)[x] else 0
    decreases |xs|
  {
    if |xs| > 0 {
      FilterMultiset(xs[1..], p);
      assert xs == [xs[0]] + xs[1..];
    }
  }

  lemma FilterMembership<T(!new)>(xs: seq<T>, p: T -> bool, x: T)
    ensures x in Filter(xs, p) <==> x in xs && p(x)
  {
    FilterMultiset(xs, p);
    assert x in Filter(xs, p) <==> x in multiset(Filter(xs, p));
    assert x in xs <==> x in multiset(xs);
  }

  lemma {:induction false} FilterAppend<T>(xs: seq<T>, ys: seq<T>, p: T -> bool)
    ensures Filter(xs + ys, p) == Filter(xs, p) + Filter(ys, p)
    decreases |xs|
  {
    if |xs| > 0 {
      FilterAppend(xs[1..], ys, p);
      assert (xs + ys)[1..] == xs[1..] + ys;
    } else {
      assert xs + ys == ys;
    }
  }

  /** Filtering by a condition that holds of every element changes nothing. */
  lemma {:induction false} FilterAll<T>(xs: seq<T>, p: T -> bool)
    requires forall i :: 0 <= i < |xs| ==> p(xs[i])
    ensures Filter(xs, p) == xs
    decreases |xs|
  {
    if |xs| > 0 {
      FilterAll(xs[1..], p);
    }
  }

  /** Filtering by a condition that holds of no element leaves nothing. */
  lemma {:induction false} FilterNone<T>(xs: seq<T>, p: T -> bool)
    requires forall i :: 0 <= i < |xs| ==> !p(xs[i])
    ensures Filter(xs, p) == []
    decreases |xs|
  {
    if |xs| > 0 {
      FilterNone(xs[1..], p);
    }
  }

  /** Keeping the elements that satisfy p and those that do not loses nothing. */
  lemma FilterPartition<T(!new)>(xs: seq<T>, p: T -> bool, q: T -> bool)
    requires forall x :: q(x) == !p(x)
    ensures multiset(Filter(xs, p)) + multiset(Filter(xs, q)) == multiset(xs)
  {
    FilterMultiset(xs, p);
    FilterMultiset(xs, q);
    var a, b := multiset(Filter(xs, p)), multiset(Filter(xs, q));
    assert forall x :: (a + b)[x] == multiset(xs)[x];
  }

  /** Two conditions that never hold together select at most |xs| rows between them. */
  lemma {:induction false} FilterDisjointCount<T>(xs: seq<T>, p: T -> bool, q: T -> bool)
    requires forall x :: !(p(x) && q(x))
    ensures |Filter(xs, p)| + |Filter(xs, q)| <= |xs|
    decreases |xs|
  {
    if |xs| > 0 {
      FilterDisjointCount(xs[1..], p, q);
    }
  }

  /** Appending one element adds one to the count exactly when it satisfies p. */
  lemma FilterSnoc<T>(xs: seq<T>, x: T, p: T -> bool)
    ensures |Filter(xs + [x], p)| == |Filter(xs, p)| + (if p(x) then 1 else 0)
  {
    FilterAppend(xs, [x], p);
    assert Filter([x], p) == if p(x) then [x] else [] by {
      assert [x][1..] == [];
    }
  }

  /** Replacing one element moves the count by what the old and new elements contribute. */
  lemma {:induction false} FilterUpdateCount<T>(xs: seq<T>, i: nat, y: T, p: T -> bool)
    requires i < |xs|
    ensures |Filter(xs[i := y], p)| + (if p(xs[i]) then 1 else 0) == |Filter(xs, p)| + (if p(y) then 1 else 0)
    decreases |xs|
  {
    if i == 0 {
      assert xs[i := y][1..] == xs[1..];
    } else {
      FilterUpdateCount(xs[1..], i - 1, y, p);
      assert xs[i := y][1..] == xs[1..][i - 1 := y];
    }
  }

  /** Removing the element at k lowers the count by what that element contributed. */
  lemma FilterRemoveCount<T>(xs: seq<T>, k: nat, p: T -> bool)
    requires k < |xs|
    ensures |Filter(xs[..k] + xs[k + 1..], p)| + (if p(xs[k]) then 1 else 0) == |Filter(xs, p)|
  {
    assert xs == (xs[..k] + [xs[k]]) + xs[k + 1..];
    FilterAppend(xs[..k] + [xs[k]], xs[k + 1..], p);
    FilterSnoc(xs[..k], xs[k], p);
    FilterAppend(xs[..k], xs[k + 1..], p);
  }

  /** Filtering twice is filtering once by both conditions. */
  lemma {:induction false} FilterFilter<T>(xs: seq<T>, p: T -> bool, q: T -> bool, pq: T -> bool)
    requires forall x :: pq(x) == (p(x) && q(x))
    ensures Filter(Filter(xs, p), q) == Filter(xs, pq)
    decreases |xs|
  {
    if |xs| > 0 {
      FilterFilter(xs[1..], p, q, pq);
    }
  }

  /** A total preorder: the comparisons order_by and sorted() rely on. */
  ghost predicate TotalPreorder<T(!new)>(le: (T, T) -> bool)
  {
    && (forall a, b :: le(a, b) || le(b, a))
    && (forall a, b, c :: le(a, b) && le(b, c) ==> le(a, c))
  }

  predicate SortedBy<T>(xs: seq<T>, le: (T, T) -> bool)
  {
    forall i, j :: 0 <= i < j < |xs| ==> le(xs[i], xs[j])
  }

  function Insert<T(!new)>(x: T, xs: seq<T>, le: (T, T) -> bool): (r: seq<T>)
    requires TotalPreorder(le) && SortedBy(xs, le)
    ensures SortedBy(r, le)
    ensures multiset(r) == multiset(xs) + multiset{x}
    ensures |r| == |xs| + 1
  {
    if |xs| == 0 then [x]
    else if le(x, xs[0]) then
      assert forall j :: 0 <= j < |xs| ==> le(x, xs[j]);
      [x] + xs
    else
      assert xs == [xs[0]] + xs[1..];
      var tail := Insert(x, xs[1..], le);
      assert forall j :: 0 <= j < |tail| ==> le(xs[0], tail[j]) by {
        forall j | 0 <= j < |tail| ensures le(xs[0], tail[j]) {
          assert tail[j] in multiset(tail);
          if tail[j] != x {
            assert tail[j] in multiset(xs[1..]);
            var k :| 0 <= k < |xs[1..]| && xs[1..][k] == tail[j];
            assert le(xs[0], xs[k + 1]);
          }
        }
      }
      [xs[0]] + tail
  }

  /** The rows of xs ordered by le: what ORDER BY returns (ties in some order). */
  function Sort<T(!new)>(xs: seq<T>, le: (T, T) -> bool): (r: seq<T>)
    requires TotalPreorder(le)
    ensures SortedBy(r, le)
    ensures multiset(r) == multiset(xs)
    ensures |r| == |xs|
  {
    if |xs| == 0 then []
    else
      assert xs == [xs[0]] + xs[1..];
      Insert(xs[0], Sort(xs[1..], le), le)
  }

  /** a <= b on str. */
  predicate StringLe(a: string, b: string)
  {
    !Less(b, a)
  }

  lemma StringLeIsTotalPreorder()
    ensures TotalPreorder(StringLe)
  {
    forall a, b ensures StringLe(a, b) || StringLe(b, a) {
      if Less(a, b) { LessAsymmetric(a, b); }
    }
    forall a, b, c | StringLe(a, b) && StringLe(b, c) ensures StringLe(a, c) {
      if a != b {
        LessTotal(a, b);
        LessBelow(a, b);
      }
    }
  }

  /** Everything below a is below any b above a. */
  lemma LessBelow(a: string, b: string)
    requires Less(a, b)
    ensures forall c :: Less(c, a) ==> Less(c, b)
  {
    forall c | Less(c, a) ensures Less(c, b) {
      LessTransitive(c, a, b);
    }
  }

  predicate StrictlyAscending(xs: seq<string>)
  {
    forall i, j :: 0 <= i < j < |xs| ==> Less(xs[i], xs[j])
  }

  function InsertDistinct(x: string, xs: seq<string>): (r: seq<string>)
    requires StrictlyAscending(xs)
    ensures StrictlyAscending(r)
    ensures forall y :: y in r <==> y == x || y in xs
  {
    if |xs| == 0 then [x]
    else if x == xs[0] then xs
    else if Less(x, xs[0]) then
      assert forall j :: 0 <= j < |xs| ==> Less(x, xs[j]) by {
        forall j | 0 <= j < |xs| ensures Less(x, xs[j]) {
          if j > 0 { LessTransitive(x, xs[0], xs[j]); }
        }
      }
      [x] + xs
    else
      LessTotal(x, xs[0]);
      var tail := InsertDistinct(x, xs[1..]);
      assert forall j :: 0 <= j < |tail| ==> Less(xs[0], tail[j]) by {
        forall j | 0 <= j < |tail| ensures Less(xs[0], tail[j]) {
          assert tail[j] in tail;
          if tail[j] != x {
            var k :| 0 <= k < |xs[1..]| && xs[1..][k] == tail[j];
            assert Less(xs[0], xs[k + 1]);
          }
        }
      }
      [xs[0]] + tail
  }

  /** Python's sorted(list(set(xs))) on strings: every value once, in ascending order. */
  function SortedSet(xs: seq<string>): (r: seq<string>)
    ensures StrictlyAscending(r)
    ensures forall y :: y in r <==> y in xs
  {
    if |xs| == 0 then []
    else InsertDistinct(xs[0], SortedSet(xs[1..]))
  }

  /** A strictly ascending sequence repeats nothing. */
  lemma AscendingIsDistinct(xs: seq<string>)
    requires StrictlyAscending(xs)
    ensures forall i, j :: 0 <= i < j < |xs| ==> xs[i] != xs[j]
  {
    forall i, j | 0 <= i < j < |xs| ensures xs[i] != xs[j] {
      LessIrreflexive(xs[i]);
    }
  }

}

=== FILE: text.dfy ===
/**
 * The handful of Python string operations the application relies on:
 * str.strip(), str.split(sep), sep.join(parts), str.upper(), the ordering of
 * str values, and decimal digits.
 */
module Text {

  /** Characters Python's str.isspace() accepts, hence the ones str.strip() removes. */
  predicate IsSpace(c: char)
  {
    || ('\U{9}' <= c <= '\U{D}')
    || ('\U{1C}' <= c <= '\U{20}')
    || c == '\U{85}' || c == '\U{A0}' || c == '\U{1680}'
    || ('\U{2000}' <= c <= '\U{200A}')
    || c == '\U{2028}' || c == '\U{2029}' || c == '\U{202F}' || c == '\U{205F}' || c == '\U{3000}'
  }

  /** No whitespace at either end. */
  predicate Stripped(s: string)
  {
    |s| == 0 || (!IsSpace(s[0]) && !IsSpace(s[|s| - 1]))
  }

  function TrimLeft(s: string): (r: string)
    ensures |r| <= |s| && r == s[|s| - |r|..]
    ensures |r| > 0 ==> !IsSpace(r[0])
    ensures forall k :: 0 <= k < |s| - |r| ==> IsSpace(s[k])
  {
    if |s| > 0 && IsSpace(s[0]) then TrimLeft(s[1..]) else s
  }

  function TrimRight(s: string): (r: string)
    ensures |r| <= |s| && r == s[..|r|]
    ensures |r| > 0 ==> !IsSpace(r[|r| - 1])
    ensures forall k :: |r| <= k < |s| ==> IsSpace(s[k])
  {
    if |s| > 0 && IsSpace(s[|s| - 1]) then TrimRight(s[..|s| - 1]) else s
  }

  /** Python's s.strip(): s without its leading and trailing whitespace. */
  function Strip(s: string): (r: string)
    ensures Stripped(r)
    ensures Stripped(s) ==> r == s
    ensures forall c :: c in r ==> c in s
    ensures exists i, j :: 0 <= i <= j <= |s| && r == s[i..j] && SpacesOutside(s, i, j)
  {
    var l := TrimLeft(s);
    var r := TrimRight(l);
    TrimmedIsSlice(s, l, r);
    r
  }

  /** Trimming both ends leaves the slice of s between two runs of whitespace. */
  lemma TrimmedIsSlice(s: string, l: string, r: string)
    requires |l| <= |s| && l == s[|s| - |l|..] && forall k :: 0 <= k < |s| - |l| ==> IsSpace(s[k])
    requires |r| <= |l| && r == l[..|r|] && forall k :: |r| <= k < |l| ==> IsSpace(l[k])
    ensures forall c :: c in r ==> c in s
    ensures 0 <= |s| - |l| <= |s| - |l| + |r| <= |s|
    ensures r == s[|s| - |l|..|s| - |l| + |r|]
    ensures SpacesOutside(s, |s| - |l|, |s| - |l| + |r|)
  {
    var i := |s| - |l|;
    SliceOfSuffix(s, i, |r|);
    TrailingSpaces(s, l, i, |r|);
  }

  lemma SliceOfSuffix(s: string, i: nat, n: nat)
    requires i + n <= |s|
    ensures s[i..][..n] == s[i..i + n]
    ensures forall c :: c in s[i..i + n] ==> c in s
  {
  }

  lemma TrailingSpaces(s: string, l: string, i: nat, n: nat)
    requires i + n <= |s| && l == s[i..]
    requires forall k :: n <= k < |l| ==> IsSpace(l[k])
    ensures forall k :: i + n <= k < |s| ==> IsSpace(s[k])
  {
    forall k | i + n <= k < |s| ensures IsSpace(s[k]) {
      assert s[k] == l[k - i];
    }
  }

  /** Every character of s before index i and from index j on is whitespace. */
  predicate SpacesOutside(s: string, i: nat, j: nat)
    requires i <= j <= |s|
  {
    && (forall k :: 0 <= k < i ==> IsSpace(s[k]))
    && (forall k :: j <= k < |s| ==> IsSpace(s[k]))
  }

  /** Python's sep.join(parts) for a one-character separator. */
  function Join(parts: seq<string>, sep: char): string
  {
    if |parts| == 0 then ""
    else if |parts| == 1 then parts[0]
    else parts[0] + [sep] + Join(parts[1..], sep)
  }

  /**
   * Python's s.split(sep) for a one-character separator: the fields between
   * separators, in order, empty fields included.
   */
  function Split(s: string, sep: char): (r: seq<string>)
    ensures |r| == multiset(s)[sep] + 1
    ensures forall i :: 0 <= i < |r| ==> sep !in r[i]
    ensures Join(r, sep) == s
  {
    if |s| == 0 then [""]
    else
      var rest := Split(s[1..], sep);
      assert s == [s[0]] + s[1..];
      assert multiset(s) == multiset{s[0]} + multiset(s[1..]);
      if s[0] == sep then
        JoinCons("", rest, sep);
        [""] + rest
      else
        JoinExtendFirst(s[0], rest, sep);
        [[s[0]] + rest[0]] + rest[1..]
  }

  lemma JoinCons(a: string, rest: seq<string>, sep: char)
    requires |rest| > 0
    ensures Join([a] + rest, sep) == a + [sep] + Join(rest, sep)
  {
    assert ([a] + rest)[1..] == rest;
  }

  lemma JoinExtendFirst(c: char, rest: seq<string>, sep: char)
    requires |rest| > 0
    ensures Join([[c] + rest[0]] + rest[1..], sep) == [c] + Join(rest, sep)
  {
    var r := [[c] + rest[0]] + rest[1..];
    if |rest| > 1 {
      assert r[1..] == rest[1..];
      assert Join(rest, sep) == rest[0] + [sep] + Join(rest[1..], sep);
    }
  }

  lemma {:induction false} SplitNoSeparator(a: string, sep: char)
    requires sep !in a
    ensures Split(a, sep) == [a]
    decreases |a|
  {
    if |a| > 0 {
      assert a == [a[0]] + a[1..];
      SplitNoSeparator(a[1..], sep);
    }
  }

  lemma {:induction false} SplitAfterField(a: string, b: string, sep: char)
    requires sep !in a
    ensures Split(a + [sep] + b, sep) == [a] + Split(b, sep)
    decreases |a|
  {
    var s := a + [sep] + b;
    if |a| == 0 {
      assert s[1..] == b;
    } else {
      assert s[1..] == a[1..] + [sep] + b;
      assert a == [a[0]] + a[1..];
      SplitAfterField(a[1..], b, sep);
    }
  }

  /** Splitting a join of separator-free fields gives the fields back. */
  lemma {:induction false} SplitJoin(parts: seq<string>, sep: char)
    requires |parts| > 0
    requires forall i :: 0 <= i < |parts| ==> sep !in parts[i]
    ensures Split(Join(parts, sep), sep) == parts
    decreases |parts|
  {
    if |parts| == 1 {
      SplitNoSeparator(parts[0], sep);
    } else {
      SplitJoin(parts[1..], sep);
      SplitAfterField(parts[0], Join(parts[1..], sep), sep);
      assert parts == [parts[0]] + parts[1..];
    }
  }

  /** ASCII upper-casing of one character. */
  function UpperChar(c: char): char
  {
    if 'a' <= c <= 'z' then (c as int - 32) as char else c
  }

  /** Python's s.upper() on ASCII text. */
  function Upper(s: string): (r: string)
    ensures |r| == |s|
  {
    seq(|s|, i requires 0 <= i < |s| => UpperChar(s[i]))
  }

  /** First index of c in s. */
  function IndexOf(s: string, c: char): (k: nat)
    requires c in s
    ensures k < |s| && s[k] == c && c !in s[..k]
  {
    if s[0] == c then 0 else 1 + IndexOf(s[1..], c)
  }

  /** Python's a < b on str: code-point lexicographic order, a proper prefix first. */
  predicate Less(a: string, b: string)
  {
    if |a| == 0 then |b| > 0
    else |b| > 0 && (if a[0] == b[0] then Less(a[1..], b[1..]) else a[0] < b[0])
  }

  lemma {:induction false} LessIrreflexive(a: string)
    ensures !Less(a, a)
  {
    if |a| > 0 {
      LessIrreflexive(a[1..]);
    }
  }

  lemma {:induction false} LessTransitive(a: string, b: string, c: string)
    requires Less(a, b) && Less(b, c)
    ensures Less(a, c)
  {
    if |a| > 0 && a[0] == b[0] && b[0] == c[0] {
      LessTransitive(a[1..], b[1..], c[1..]);
    }
  }

  lemma {:induction false} LessTotal(a: string, b: string)
    requires a != b
    ensures Less(a, b) || Less(b, a)
  {
    if |a| > 0 && |b| > 0 && a[0] == b[0] {
      assert a == [a[0]] + a[1..] && b == [b[0]] + b[1..];
      LessTotal(a[1..], b[1..]);
    }
  }

  lemma {:induction false} LessAsymmetric(a: string, b: string)
    requires Less(a, b)
    ensures !Less(b, a)
  {
    if |a| > 0 && a[0] == b[0] {
      LessAsymmetric(a[1..], b[1..]);
    }
  }

  predicate IsDigit(c: char)
  {
    '0' <= c <= '9'
  }

  predicate AllDigits(s: string)
  {
    forall i :: 0 <= i < |s| ==> IsDigit(s[i])
  }

  function DigitValue(c: char): nat
    requires IsDigit(c)
  {
    c as int - '0' as int
  }

  function DigitChar(n: nat): (c: char)
    requires n < 10
    ensures IsDigit(c) && DigitValue(c) == n
  {
    ('0' as int + n) as char
  }

  /** int(s) for a string of decimal digits. */
  function Decimal(s: string): nat
    requires AllDigits(s)
  {
    if |s| == 0 then 0 else Decimal(s[..|s| - 1]) * 10 + DigitValue(s[|s| - 1])
  }

  /** Zero-padded two-digit rendering, as strftime's %H, %M, %m and %d print n. */
  function Pad2(n: nat): (r: string)
    requires n < 100
    ensures |r| == 2 && AllDigits(r) && Decimal(r) == n
  {
    var r := [DigitChar(n / 10), DigitChar(n % 10)];
    assert r[..1] == [r[0]] && r[..1][..0] == [];
    assert Decimal(r[..1]) == DigitValue(r[0]);
    r
  }

  /** Zero-padded four-digit rendering, as %Y prints a year. */
  function Pad4(n: nat): (r: string)
    requires n < 10000
    ensures |r| == 4 && AllDigits(r) && Decimal(r) == n
  {
    var hi := Pad2(n / 100);
    var lo := Pad2(n % 100);
    DecimalAppendPair(hi, lo);
    hi + lo
  }

  lemma DecimalAppendPair(a: string, b: string)
    requires AllDigits(a) && AllDigits(b) && |b| == 2
    ensures AllDigits(a + b) && Decimal(a + b) == Decimal(a) * 100 + Decimal(b)
  {
    var ab := a + b;
    var a1 := a + [b[0]];
    assert ab[..|ab| - 1] == a1 && ab[|ab| - 1] == b[1];
    assert a1[..|a1| - 1] == a && a1[|a1| - 1] == b[0];
    assert Decimal(a1) == Decimal(a) * 10 + DigitValue(b[0]);
    assert b[..1] == [b[0]] && b[..1][..0] == [];
    assert Decimal(b[..1]) == DigitValue(b[0]);
    assert b[..|b| - 1] == b[..1];
    assert Decimal(b) == DigitValue(b[0]) * 10 + DigitValue(b[1]);
    assert Decimal(ab) == Decimal(a1) * 10 + DigitValue(b[1]);
  }

  /** Iterating a string: each character as a one-character string. */
  function Characters(text: string): (r: seq<string>)
    ensures |r| == |text|
    ensures forall i :: 0 <= i < |r| ==> r[i] == [text[i]]
  {
    seq(|text|, i requires 0 <= i < |text| => [text[i]])
  }

}
